=== FILE: README.md ===
# Airdrop checker: a Dafny model of its core

This project models the logic of a multi-chain airdrop checker written in TypeScript (Next.js), and proves properties of that model. The checker:

- looks up an Ethereum-style address on several EVM chains over JSON-RPC, trying each chain's endpoints in order until one answers;
- derives heuristic activity metrics from the transaction count: active days, contract interactions, gas spent and a 0–100 score;
- asks reward programs whether the address is eligible, probes two known token contracts with `balanceOf`, and merges the results with a demonstration database;
- adds summary counts and speculative "future airdrop" predictions;
- on the dashboard, aggregates the per-chain analyses and computes a tiered score.

Every network access, `Math.random`, the clock, date parsing and `ethers.utils.isAddress` is a parameter of the function that uses it, so each operation is a pure function.

Modules, one per file:

| file | module | models |
|---|---|---|
| `wrappers.dfy` | `Wrappers` | `Option` and `Result` |
| `text.dfy` | `Text` | `includes`, `toLowerCase`, `split('.')`, `replace` of the first occurrence |
| `json.dfy` | `Json` | JSON values, truthiness, property access with optional chaining |
| `quantity.dfy` | `Quantity`, `HexValue` | `parseInt` with radix 16 and with no radix, and the `0x` quantity encoding |
| `decimal.dfy` | `Decimal` | `parseFloat` on plain decimal strings and on the string forms of JSON values |
| `metrics.dfy` | `Metrics` | the derived metric formulas, shared by `src/lib/rpc.ts` and the analyze route |
| `rpc.dfy` | `Rpc` | the chain registry, `fetchWithFallback` and `analyzeAddress` |
| `analyze_route.dfy` | `AnalyzeRoute` | `getRpcUrl` and the `/api/analyze` handler |
| `catalog.dfy` | `Catalog` | the reward-program catalogue and the demonstration database |
| `eligibility_checker.dfy` | `EligibilityChecker` | `EligibilityChecker`, `getValueByPath` and `checkAirdropContracts` |
| `eligibility_route.dfy` | `EligibilityRoute` | the `/api/eligibility` handler, its summary, metrics and predictions |
| `mock_data.dfy` | `MockData` | `src/lib/data.ts`: the chain list, `checkOnChainData`, `checkAirdropEligibility` |
| `dashboard.dfy` | `Dashboard` | `checkAllChains` and `getAirdropScore` of the dashboard page |

Three behaviours of the code a reader might not expect:

- **Fractional score.** The analyzer's score is not always an integer. The floor covers only `txCount / 100 * 50`; `Math.min(txCount * 0.5, 50)` keeps its half, so an odd count below 100 scores x.5. `Metrics.AirdropScore` is therefore real-valued, and `Metrics.ScoreClosedForm` gives its exact value.
- **No sort in the eligibility route.** The route does not sort its merged list by amount; it keeps the merge order. Only `checkAirdropEligibility` in `src/lib/data.ts` sorts, stably and descending (`MockData.SortCorrect`).
- **Missing `result` accepted.** The RPC client accepts a 2xx answer without an `error` field even when `result` is absent. The success value is then `undefined` (`None` here).

## Model

| member | source | states |
|---|---|---|
| Rpc.Classify | src/lib/rpc.ts:109-127 | An attempt fails when it throws, when the status is not 2xx, or when the body has a truthy `error` field; it succeeds iff none of these holds (a 2xx answer with a non-null body and no truthy `error`), and a success carries the body's `result` |
| Rpc.TryEndpoints | src/lib/rpc.ts:104-128 | Endpoints are tried in list order: on success the last one tried succeeded and every earlier one failed; when none succeeds, all were tried and all failed |
| Rpc.FetchWithFallback | src/lib/rpc.ts:92-131 | An unregistered chain fails with "chain not supported" and contacts nothing. Otherwise the contacted endpoints are a prefix of the chain's list, each contacted at most once. Success returns the first success's `result`. Failure means every endpoint was contacted and failed, and is reported as "all RPCs failed" for that chain |
| Rpc.WalkStopsAtFirstSuccess | src/lib/rpc.ts:104-123 | If endpoints 0..k-1 fail and endpoint k succeeds, the scan stops at k with k's result |
| Rpc.FirstSuccessWins | src/lib/rpc.ts:92-123 | For a registered chain, the call returns the first succeeding endpoint's result and contacts exactly the endpoints up to it |
| Rpc.SecondEndpointExample | src/lib/rpc.ts:3-11 | On Ethereum, a throwing first endpoint and a succeeding second one give the second's result; the third is never contacted |
| Rpc.RegistryNonEmpty | src/lib/rpc.ts:2-89 | The registry holds exactly the ten chains, each with at least one endpoint |
| Rpc.DeriveFor | src/lib/rpc.ts:141-158 | Derived metrics exist exactly when the transaction count decodes to a number |
| Rpc.AnalyzeAddress | src/lib/rpc.ts:134-162 | The analysis succeeds iff both the balance fetch and the count fetch succeed. A failure reports either "chain not supported" or "all RPCs failed", according to registry membership. A success carries the requested address and chain id unchanged, the chain's name and symbol, both decoded quantities, and the derived metrics when the count decodes (none when it is NaN, where the source's metrics are NaN) |
| Metrics.ActiveDays | src/lib/rpc.ts:157 | At most 365 and at most twice the count, and equal to one of the two |
| Metrics.ActiveDaysMonotone | src/lib/rpc.ts:157 | Non-decreasing in the transaction count |
| Metrics.ContractInteractions | src/lib/rpc.ts:158 | The floor of 0.3·tx: 10k ≤ 3·tx < 10k + 10; never more than tx |
| Metrics.ContractInteractionsMonotone | src/lib/rpc.ts:158 | Non-decreasing in the transaction count |
| Metrics.GasSpentMilli | src/lib/rpc.ts:145 | Gas in thousandths of a unit: 5 per transaction on chain 1 and 1 per transaction elsewhere, i.e. exactly tx · 0.005 on chain 1 and tx · 0.001 on other chains |
| Metrics.GasPerTxMilli | src/app/api/analyze/route.ts:77 | The per-transaction gas rate in thousandths is at least 1 and, as a real, exactly 0.005 on chain 1 and 0.001 on every other chain |
| Metrics.PrimaryChainGasDominates | src/lib/rpc.ts:145 | Chain 1's gas is never below another chain's for the same count, and is exactly five times it |
| Metrics.AirdropScore | src/lib/rpc.ts:146 | The score lies in [0, 100] |
| Metrics.ScoreMonotone | src/lib/rpc.ts:146 | The score is non-decreasing in the transaction count |
| Metrics.ScoreClosedForm | src/lib/rpc.ts:146 | 100 from 100 transactions on; below that, the count itself when even and the count minus one half when odd |
| Metrics.ScoreSamples | src/lib/rpc.ts:146 | 0 → 0, 40 → 40, 100 → 100, 1 → 0.5 |
| Metrics.Derive | src/app/api/analyze/route.ts:77-91 | The route's derived fields: active days ≤ 365, interactions ≤ tx, score in [0, 100] |
| Quantity.ReadDigits | src/lib/rpc.ts:141-142 | `parseInt` is NaN exactly when the text does not start with a digit of the radix |
| Quantity.ParseHex | src/lib/rpc.ts:141-142 | `parseInt(s, 16)` is NaN exactly when the text left after an optional `0x`/`0X` prefix does not start with a hex digit; text starting with a hex digit and no prefix always reads as a number |
| Quantity.ParseHexPrefixOptional | src/lib/rpc.ts:141-142 | With radix 16, `0x` + t and `0X` + t read as t does |
| Quantity.ParseAuto | src/app/api/analyze/route.ts:36 | `parseInt(s)` with no radix: a `0x`/`0X` prefix makes it the radix-16 reading; otherwise it is NaN exactly when the text does not start with a decimal digit |
| Quantity.ParseAutoDecimal | src/app/api/analyze/route.ts:36 | Decimal digits followed by text that does not continue them read as their decimal value, so `?chainId=137` is chain 137 |
| Quantity.DecodeEncode | src/lib/rpc.ts:141-142 | Decoding a `0x` quantity with radix 16 gives back the encoded number |
| Quantity.TrailingTextIgnored | src/app/api/analyze/route.ts:36 | `parseInt` reads the leading digits and ignores what follows them |
| HexValue.DecodeResult | src/lib/providers/eligibility.ts:121 | An encoded quantity in a JSON-RPC `result` decodes to its number |
| HexValue.ParseHexValue | src/lib/providers/eligibility.ts:121 | `parseInt(data.result, 16)`: undefined is NaN; a string is read with radix 16; a non-empty array reads as its first element; `null`, `true`, `[]` and objects are NaN |
| HexValue.FalseReadsAsHex | src/lib/providers/eligibility.ts:121 | A `false` result reads as 250, the hex prefix `fa` of its text "false" |
| Json.FalsyValues | src/lib/providers/eligibility.ts:45 | `Truthy` is false exactly when it is undefined, `null`, `false`, `0` or `""`; every array and object is truthy |
| Decimal.ParseFloatValue | src/app/api/eligibility/route.ts:52 | `parseFloat` of a value's string form: a non-empty array reads as its first element, and `null`, booleans, objects and `[]` are NaN |
| Json.Prop | src/lib/providers/eligibility.ts:73 | `o?.[p]`: undefined on undefined or null, present on an object iff the key is, and defined only on objects and arrays |
| AnalyzeRoute.GetRpcUrl | src/app/api/analyze/route.ts:17-30 | An unknown chain throws "Chain not supported". With a non-empty key and an Alchemy slug the URL is the Alchemy URL for them; otherwise it is the chain's public URL |
| AnalyzeRoute.RpcType | src/app/api/analyze/route.ts:56 | 'alchemy' iff the URL contains "alchemy", and 'public' otherwise |
| AnalyzeRoute.RequestedChain | src/app/api/analyze/route.ts:36 | A missing or empty `chainId` means chain 1; any other value is read with `parseInt` |
| AnalyzeRoute.ValidAddress | src/app/api/analyze/route.ts:39 | Only a present, non-empty `address` passes, and such an address passes iff the validator accepts it |
| AnalyzeRoute.UnsluggedChainsArePublic | src/app/api/analyze/route.ts:10-14 | Chains 56, 43114, 59144, 534352 and 1088 always get their public URL, whatever the key |
| AnalyzeRoute.PublicUrlsNotAlchemy | src/app/api/analyze/route.ts:4-15 | No public URL contains "alchemy" |
| AnalyzeRoute.AlchemyUrlIsAlchemy | src/app/api/analyze/route.ts:24-26 | Every Alchemy URL contains "alchemy" |
| AnalyzeRoute.RpcTypeIffMetered | src/app/api/analyze/route.ts:54-56 | `rpcType` is 'alchemy' iff a non-empty key was given and the chain has a slug |
| AnalyzeRoute.Suggestion | src/app/api/analyze/route.ts:104-106 | The "remove ALCHEMY_API_KEY" hint iff the message contains "Alchemy", else the retry hint |
| AnalyzeRoute.Get | src/app/api/analyze/route.ts:32-109 | 400 iff the address is missing or invalid, or the chain is NaN or unsupported; no provider is built then, and a valid address with a bad chain gets "Chain not supported". Otherwise the provider uses `getRpcUrl`'s URL and the answer is 200 iff the provider answers; a success carries the requested address, the provider's balance and count, the chain, its name, the `rpcType` and the shared derived metrics. An unreachable network gives 500 "Network unreachable: " + the reason, a failed call its own message; every 500 carries the chain parsed under the '0' default and the matching suggestion |
| AnalyzeRoute.RejectionIgnoresProvider | src/app/api/analyze/route.ts:38-52 | A rejected request gets the same response whatever the provider would do |
| AnalyzeRoute.MissingChainDefaults | src/app/api/analyze/route.ts:36 | Without a `chainId` parameter the request is for chain 1 |
| Text.Lower | src/app/api/eligibility/route.ts:7 | Lower-casing keeps the length, maps each character, and leaves no ASCII upper-case letter; non-ASCII letters such as 'Ä' are kept, which changes no validation outcome because no non-ASCII character lower-cases into `[0-9a-fx]` |
| Text.Contains | src/app/api/analyze/route.ts:56 | A contained string is never longer than the text, and every prefix of the text is contained |
| Text.Split | src/lib/providers/eligibility.ts:73 | There is always at least one piece, and no piece holds the separator |
| Text.JoinSplit | src/lib/providers/eligibility.ts:73 | Joining the pieces with the separator gives back the text: splitting drops only the separators |
| Text.SplitJoin | src/lib/providers/eligibility.ts:73 | Splitting `a.b` gives the pieces of `a` followed by the pieces of `b` |
| Text.ReplaceAfterPrefix | src/lib/providers/eligibility.ts:33 | Only the first occurrence of the placeholder is replaced, and the text around it is kept |
| Text.ReplaceAbsent | src/lib/providers/eligibility.ts:33 | A string without the placeholder is unchanged |
| Text.ReplaceFirst | src/lib/providers/eligibility.ts:33 | An empty pattern puts the replacement in front of the text; the placement of a non-empty one is fixed by `ReplaceAfterPrefix` and `ReplaceAbsent` |
| EligibilityChecker.FollowPathAppend | src/lib/providers/eligibility.ts:72-74 | Following a path in two parts equals following the whole path |
| EligibilityChecker.UndefinedStaysUndefined | src/lib/providers/eligibility.ts:73 | Once a step is undefined, the lookup stays undefined and never fails |
| EligibilityChecker.GetValueByPath | src/lib/providers/eligibility.ts:72-74 | An undefined or `null` object gives undefined for every path, and a path without a dot is a single property access |
| EligibilityChecker.IsEligibleValue | src/lib/providers/eligibility.ts:37-38 | `=== 1 || === true`: an eligible value is truthy, and no string, array or object is eligible, since strict equality does not coerce |
| EligibilityChecker.PathComposition | src/lib/providers/eligibility.ts:73 | Looking up `a.b` equals looking up `b` in the result of looking up `a` |
| EligibilityChecker.MissingStepIsUndefined | src/lib/providers/eligibility.ts:72-74 | A missing intermediate key makes the whole lookup undefined |
| EligibilityChecker.AmountOrTba | src/lib/providers/eligibility.ts:45 | A truthy estimate is kept; anything falsy, zero included, becomes 'TBA' |
| EligibilityChecker.CheckViaApi | src/lib/providers/eligibility.ts:32-50 | The check fails iff the endpoint is missing or the fetch fails. Otherwise it is eligible iff the value at `responsePath` is the number 1 or `true`, and it copies the program's name, ticker, claim URL and deadline |
| EligibilityChecker.CheckProtocol | src/lib/providers/eligibility.ts:19-30 | 'api' dispatches to the API check; 'contract', 'rpc' and unknown tags are never eligible |
| EligibilityChecker.CheckAll | src/lib/providers/eligibility.ts:4-17 | Only eligible results are kept, never more than there are programs |
| EligibilityChecker.CheckAllIsConcatenation | src/lib/providers/eligibility.ts:7-14 | The output is each program's own contribution in catalogue order; a failing program contributes nothing and its siblings are still checked |
| EligibilityChecker.CheckAllAppend | src/lib/providers/eligibility.ts:7-14 | Checking two catalogues in sequence equals checking their concatenation |
| EligibilityChecker.SingleContribution | src/lib/providers/eligibility.ts:8-13 | A program contributes its result iff the check succeeds and is eligible |
| EligibilityChecker.OnlyApiProgramsContribute | src/lib/providers/eligibility.ts:19-70 | Programs not checked through an API never appear in the output |
| EligibilityChecker.BalanceOfCalldata | src/lib/providers/eligibility.ts:115 | The calldata is the selector `0x70a08231`, then 24 zeros, then the address without its first two characters |
| EligibilityChecker.CalldataLength | src/lib/providers/eligibility.ts:115 | A 42-character address gives 74 characters of calldata |
| EligibilityChecker.CalldataRoundTrip | src/lib/providers/eligibility.ts:115 | The address body can be read back from the end of the calldata |
| EligibilityChecker.ContractEntry | src/lib/providers/eligibility.ts:104-130 | A contract yields an entry iff the call answers with a non-null body whose hex `result` is a balance above zero. The entry is eligible, has no status, is named after the contract, and its amount is exactly that balance / 10^18 |
| EligibilityChecker.CheckAirdropContracts | src/lib/providers/eligibility.ts:93-134 | Never more entries than contracts; every entry is eligible, without status, with a positive amount |
| EligibilityChecker.ContractProbeKeeps | src/lib/providers/eligibility.ts:103-131 | Every contract whose probe yields an entry has that entry in the result |
| EligibilityChecker.ContractProbeSources | src/lib/providers/eligibility.ts:103-131 | Every entry of the result is the entry of one of the probed contracts; failing contracts contribute nothing |
| EligibilityChecker.CheckAirdropContractsAppend | src/lib/providers/eligibility.ts:103-131 | Probing two lists in sequence equals probing their concatenation |
| EligibilityChecker.SingleContractProbe | src/lib/providers/eligibility.ts:103-131 | A one-contract list yields that contract's entry when there is one and nothing otherwise; with the append lemma this fixes the result of every list, in list order |
| EligibilityChecker.CheckAirdropContractsAsWritten | src/lib/providers/eligibility.ts:103 | With the loop header as written, the function throws a ReferenceError iff the contract list is non-empty |
| EligibilityChecker.AsWrittenProbeAlwaysRejects | src/lib/providers/eligibility.ts:95-131 | As written, the shipped two-contract probe always throws; the corrected probe returns the first contract's entry (if any) followed by the second's |
| EligibilityRoute.ValidateAddress | src/app/api/eligibility/route.ts:7-11 | Accepted iff the lower-cased input matches `^0x[a-f0-9]{40}$`; an accepted address is that lower-cased text, 42 characters, none upper-case |
| EligibilityRoute.ValidationIdempotent | src/app/api/eligibility/route.ts:7-9 | An accepted address is accepted again unchanged |
| EligibilityRoute.MockDbNeverMatches | src/app/api/eligibility/route.ts:23 | The shipped database's mixed-case key never matches an accepted (lower-case) address |
| EligibilityRoute.DemoAddressFound | src/app/api/eligibility/route.ts:23 | With a lower-case key, every accepted spelling of the demonstration address finds both records |
| EligibilityRoute.FromMock | src/app/api/eligibility/route.ts:29-36 | A demonstration record becomes an eligible entry named after its program, with the same amount and status |
| EligibilityRoute.Merge | src/app/api/eligibility/route.ts:26-37 | Program results come first, then contract probes, then demonstration records, all kept |
| EligibilityRoute.CountStatus | src/app/api/eligibility/route.ts:50-51 | The count is at most the list length; it is 0 iff no record has the status, and the full length iff every record has it |
| EligibilityRoute.CountStatusSingle | src/app/api/eligibility/route.ts:50-51 | One record counts 1 iff its status is the one counted, else 0; with `CountStatusAppend` this fixes the count of every list |
| EligibilityRoute.StatusCountsDisjoint | src/app/api/eligibility/route.ts:50-51 | Claimable plus pending never exceeds the number of merged airdrops |
| EligibilityRoute.CountStatusAppend | src/app/api/eligibility/route.ts:50-51 | Counting distributes over concatenation |
| EligibilityRoute.UnstatusedNotCounted | src/app/api/eligibility/route.ts:50-51 | Entries without a status are never counted |
| EligibilityRoute.NumericAmount | src/app/api/eligibility/route.ts:52 | A number counts as itself and a string as its `parseFloat` reading, or 0 when unreadable. A non-empty array counts as its first element does, because `parseFloat` reads the comma-joined string form; a missing value, `null`, a boolean, an object or an empty array counts 0 |
| EligibilityRoute.TotalValue | src/app/api/eligibility/route.ts:52 | One record totals its own amount, and non-negative amounts give a non-negative total |
| EligibilityRoute.SingletonArrayAmount | src/app/api/eligibility/route.ts:52 | `[5]` and `['5']` add what `5` and `'5'` add |
| EligibilityRoute.TbaCountsZero | src/app/api/eligibility/route.ts:52 | 'TBA' adds nothing to the total value |
| EligibilityRoute.TotalValueAppend | src/app/api/eligibility/route.ts:52 | The total value distributes over concatenation |
| EligibilityRoute.TotalValueBounds | src/app/api/eligibility/route.ts:52 | With non-negative amounts, the total is at least every single amount |
| EligibilityRoute.Summarize | src/app/api/eligibility/route.ts:49-53 | `totalClaimable` and `totalPending` are the counts of the two statuses, `totalValue` is the total of the amounts, and the two counts together never exceed the number of airdrops |
| EligibilityRoute.GetOnChainMetrics | src/app/api/eligibility/route.ts:60-81 | 'unknown' with nonce 0 iff the fetch throws or the body is null. Otherwise the nonce is the hex-decoded `result`, and activity is 'high' iff it exceeds 10 |
| EligibilityRoute.PredictAirdrops | src/app/api/eligibility/route.ts:83-105 | LayerZero is predicted iff the nonce exceeds 50 and zkSync iff it exceeds 100. The list is exactly [LayerZero, zkSync] above 100, exactly [LayerZero] above 50 up to 100, and empty otherwise (NaN included) |
| EligibilityRoute.PredictionExamples | src/app/api/eligibility/route.ts:83-105 | Nonce 60 yields exactly the LayerZero prediction; an unknown or NaN nonce yields none |
| EligibilityRoute.Get | src/app/api/eligibility/route.ts:5-58 | 400 "Invalid address" iff validation rejects the input, and never a server error. Otherwise the airdrops are the merge of program results, contract probes and database records for the lower-cased address; `totalClaimable` and `totalPending` count the two statuses in them, `totalValue` sums their amounts; the metrics and predictions come from the nonce lookup |
| EligibilityRoute.GetAsWritten | src/app/api/eligibility/route.ts:16-20 | With the probe as written, a valid address gets a server error iff the contract list is non-empty; otherwise the answer is the corrected handler's |
| EligibilityRoute.AsWrittenRouteAlwaysFails | src/app/api/eligibility/route.ts:16-20 | With the shipped contracts every valid address gets a server error from the handler as written, and a full answer from the corrected one |
| EligibilityRoute.RejectionIgnoresNetwork | src/app/api/eligibility/route.ts:9-20 | A rejected address gets the same response whatever the network does |
| EligibilityRoute.ShippedStatusCountsAreZero | src/app/api/eligibility/route.ts:22-53 | With the shipped database, nothing is ever counted as claimable or pending |
| EligibilityRoute.DemoAddressCounted | src/app/api/eligibility/route.ts:22-53 | With the lower-case database, the demonstration address reports exactly one claimable and one pending airdrop |
| Decimal.ParseFloat | src/app/api/eligibility/route.ts:52 | `parseFloat` is non-negative on these inputs: a leading digit always gives a number, and a leading non-digit other than '.' gives NaN |
| Decimal.ParseFloatReads | src/app/page.tsx:78-79 | `whole.frac` followed by non-digit text reads as whole + frac / 10^len(frac) |
| Decimal.ParseFloatWhole | src/app/api/eligibility/route.ts:52 | Digits followed by text that does not continue the number read as that whole number |
| Decimal.ParseFloatExample | src/app/page.tsx:78 | "1.5" reads as 1.5 |
| Decimal.NotANumber | src/app/api/eligibility/route.ts:52 | "TBA" and the empty string are NaN |
| MockData.FindChain | src/lib/data.ts:91-92 | None iff no chain has the id; otherwise the first chain with that id |
| MockData.TxCountOf | src/lib/data.ts:106 | A falsy or missing `result` counts as 0 transactions; anything else is hex-decoded |
| MockData.CheckOnChainData | src/lib/data.ts:90-115 | None iff the chain is unlisted, the fetch throws or the body is null. Otherwise: the chain's name, the decoded count, a simulated balance in [0, 2] when the count is positive, and 0 otherwise |
| MockData.SimulatedBalance | src/lib/data.ts:109 | With a positive count the simulated balance lies in [0, 2] (the four-decimal rounding of a draw below 2); otherwise it is 0 |
| MockData.Round4 | src/lib/data.ts:109 | `toFixed(4)` stays within half a unit of the fourth decimal |
| MockData.EligibleMonotone | src/lib/data.ts:123 | Eligibility at (t, b) implies eligibility at any larger t' and b' |
| MockData.Eligible | src/lib/data.ts:123 | Both thresholds are inclusive: at least `minTx` transactions and at least `minValue` balance; `EligibleMonotone` gives its upward closure |
| MockData.ActivityMultiplier | src/lib/data.ts:126 | Non-negative for a non-negative balance, and at least 1 from 50 transactions on |
| MockData.Factor | src/lib/data.ts:127 | The clamped multiplier times `0.5 + random * 0.5` lies in [0, 1), and in [0.5, 1) at full activity |
| MockData.RewardAmount | src/lib/data.ts:127 | For a random draw in [0, 1), the amount is in [0, maxReward], below maxReward when that is positive, and at least half of it (rounded down) at full activity |
| MockData.ScaleIsProduct | src/lib/data.ts:127 | `Scale`, the share of the maximum reward built by repeated addition so that its bounds are linear facts, equals `maxReward * factor` |
| MockData.RewardAmountIsFloor | src/lib/data.ts:127 | The amount is the greatest integer not above `maxReward * min(multiplier, 1) * (0.5 + random * 0.5)` |
| MockData.DaysLeft | src/lib/data.ts:121 | The ceiling of the days to the deadline: (d − 1)·day < deadline − now ≤ d·day |
| MockData.Score | src/lib/data.ts:118-130 | Eligible iff the thresholds hold; an ineligible drop has amount 0; an eligible amount is within the cap when the minimum balance is non-negative; the drop and days left are carried |
| MockData.ScoreAmountIsFloor | src/lib/data.ts:125-127 | An eligible drop's amount is the greatest integer not above `maxReward * min(multiplier, 1) * (0.5 + random * 0.5)`, for either sign of the multiplier |
| MockData.ScoreAll | src/lib/data.ts:118-130 | The k-th drop is scored with the k-th random draw |
| MockData.KeepEligible | src/lib/data.ts:131 | Every kept record is eligible, there are never more than in the input, and the result is empty iff no record is eligible |
| MockData.KeepEligibleMembers | src/lib/data.ts:131 | A record is kept iff it is in the input and eligible: none is lost and nothing else appears |
| MockData.KeepEligibleCounts | src/lib/data.ts:131 | Each eligible record is kept as many times as it occurs, and no other record is kept |
| MockData.KeepEligibleAppend | src/lib/data.ts:131 | Filtering a concatenation concatenates the filtered parts, so the kept records stay in their original order |
| MockData.KeepEligibleSingle | src/lib/data.ts:131 | One record is kept iff it is eligible |
| MockData.InsertPermutes | src/lib/data.ts:131 | Insertion adds exactly the new record to the multiset of records |
| MockData.InsertSorted | src/lib/data.ts:131 | Inserting into a descending list keeps it descending |
| MockData.InsertStable | src/lib/data.ts:131 | Insertion leaves every other amount's records in place, and the new record goes first among its equals |
| MockData.SortCorrect | src/lib/data.ts:131 | The sort is descending by amount, a permutation, and stable: each amount's records keep their order |
| MockData.SortByAmountDesc | src/lib/data.ts:131 | The sort keeps the number of records; `SortCorrect` shows it is the stable descending sort |
| MockData.CheckAirdropEligibility | src/lib/data.ts:117-132 | The result is exactly the eligible drops, sorted stably by descending amount. Each drop meets its thresholds with an amount within its cap. The result is empty iff no drop is eligible |
| MockData.InactiveAddressGetsNothing | src/lib/data.ts:15-88 | With no transactions, no drop of the shipped database is eligible |
| MockData.DatabaseNeedsTransactions | src/lib/data.ts:15-88 | Every shipped drop needs at least three transactions |
| Dashboard.MaxExt | src/app/page.tsx:82 | `Math.max` of two numbers that may be −Infinity: one of them, and at least each finite one |
| Dashboard.NumberOrZero | src/app/page.tsx:77 | `r.txCount || 0` as a summand: a number counts as itself and anything falsy as 0 |
| Dashboard.FloatOrZero | src/app/page.tsx:78-79 | `parseFloat(v || 0)`: anything falsy reads 0; a number reads as itself and a non-empty string as its `parseFloat` reading; `true`, `[]` and objects are NaN |
| Dashboard.ArrayReadsFirstElement | src/app/page.tsx:78-79 | A non-empty array whose first element is a number or a non-empty string reads as that element |
| Dashboard.ArrayBalanceExample | src/app/page.tsx:78 | A balance of `["1.5"]` reads as 1.5 |
| Dashboard.ValidResults | src/app/page.tsx:66-73 | Failed chains are dropped; what remains are non-null bodies, never more than there are chains |
| Dashboard.ValidResultsCount | src/app/page.tsx:72-81 | `chainsChecked` equals the number of chains that answered |
| Dashboard.MaxDays | src/app/page.tsx:82 | −Infinity iff nothing answered; otherwise at least every answer's active days (a missing one counts 0) and equal to one of them |
| Dashboard.FailedChainsCountZero | src/app/page.tsx:77-80 | The sum over the answers equals the sum over all chains with failed chains counted as 0 |
| Dashboard.SumNumbersAppend | src/app/page.tsx:77-80 | The per-field sum distributes over concatenation |
| Dashboard.AnsweredAreValid | src/app/page.tsx:66-73 | Every chain that answered has its body among the results |
| Dashboard.ValidAreAnswered | src/app/page.tsx:66-73 | Every valid result is the body of a chain that answered |
| Dashboard.ValidResultsAppend | src/app/page.tsx:66-73 | Filtering two chain lists in sequence equals filtering their concatenation, so bodies keep chain order |
| Dashboard.ValidResultsSingle | src/app/page.tsx:66-73 | One chain contributes its body iff it answered; with the append lemma this fixes the result for every list |
| Dashboard.FailedChainsAddNoFloat | src/app/page.tsx:78-79 | The `parseFloat` sum over the valid results equals the sum over all chains with failed chains adding nothing |
| Dashboard.FloatSumNaN | src/app/page.tsx:78-79 | The balance or gas total is NaN iff some answering chain's field reads as NaN |
| Dashboard.MaxDaysAttained | src/app/page.tsx:82 | A finite active-days maximum is the value of some answering chain |
| Dashboard.CheckAllChains | src/app/page.tsx:62-87 | Nothing happens without an address. Otherwise: `chainsChecked` counts the answers; the transaction and interaction totals are sums over every chain with failures as 0; the balance and gas totals are the `parseFloat` sums over every chain with failures as 0 (NaN-absorbing); the active-days maximum is −Infinity iff nothing answered, at least every answering chain's value, and equal to one of them |
| Dashboard.AddFloat | src/app/page.tsx:78-79 | A NaN operand makes the sum NaN |
| Dashboard.GetAirdropScore | src/app/page.tsx:89-97 | No stats score 0. Otherwise the score is the plain sum of the bonuses: 20 above 10 transactions, 30 more above 50, 20 more above 100, 30 for more than 30 active days. It is one of 0, 20, 30, 50, 70, 80 and 100, 100 iff tx > 100 and days > 30, and 0 iff tx ≤ 10 and days ≤ 30 |
| Dashboard.CapNeverBinds | src/app/page.tsx:91-96 | For every input the bonuses add up to at most 100, so the `Math.min` cap never changes the score; all four together make exactly 100 |
| Dashboard.ScoreMonotone | src/app/page.tsx:92-95 | The score is non-decreasing in transactions and in active days |
| Dashboard.AllFailedScoresZero | src/app/page.tsx:62-97 | When every chain fails, nothing is checked and the score is 0 |

## Left out

- Network I/O is represented by oracle parameters:
  - `fetch`, the response body's JSON decoding, the 5-second `AbortController` timeout and the ethers `JsonRpcProvider` are each an oracle from URL (and request) to outcome;
  - a timeout is one more kind of thrown attempt;
  - the JSON-RPC `id` (`Date.now()`) is not modelled.
- Concurrency: `Promise.all` fan-out is modelled as a sequential map in list order. No result depends on completion order.
- `console.log`/`console.error` and the response `timestamp` fields are not modelled.
- Balances and amounts are exact numbers, not IEEE doubles:
  - wei balances are natural numbers;
  - `balance / 1e18` is an exact rational;
  - gas is counted in thousandths;
  - `toFixed(4)` and `formatEther` formatting are not modelled, except the rounding bound in `MockData.Round4`.
- Metrics.ContractInteractions: computed as the exact (3·tx) div 10. The source computes `Math.floor(tx * 0.3)` in doubles; the model uses exact arithmetic throughout.
- Metrics.AirdropScore: the first term is computed as the exact tx div 2. The source computes `Math.floor(tx / 100 * 50)` in doubles, where 58 / 100 · 50 is 28.999999999999996. Among the counts 0 to 100000, 58 is the only one where the two scores differ: the source gives 57 and the model 58. Other counts with the same rounding effect, such as 114 and 116, are above 100 and are capped at 100 in both.
- Quantity.ReadDigits: `parseInt`'s leading-whitespace skipping and sign handling are not modelled. The hex inputs come from a JSON-RPC node and never carry either. The `chainId` query parameter can: `?chainId=+1` or `?chainId=%201` is chain 1 in the source but a 400 "Chain not supported" answer in the model.
- HexValue.ParseHexValue: a numeric `result` decodes to NaN. JavaScript would first convert it to its decimal text, so `parseInt(26, 16)` is 38. A JSON-RPC node sends quantities as strings. Strings, booleans, `null`, arrays and objects are read through their string form.
- Decimal.ParseFloat: signs, exponents, `Infinity` and leading whitespace are not read; such text is NaN here. The amounts it is applied to can come from a remote program API (`estimateField`), so an amount "-5" adds −5 to the source's total value but 0 to the model's, and "1e3" adds 1000 in the source but 1 in the model.
- Dashboard.NumberOrZero: a non-numeric truthy `txCount`, `contractInteractions` or `activeDaysEstimate` is counted as 0. JavaScript would concatenate strings or coerce them; the analyze route only ever sends numbers.
- Json.Prop: inherited properties such as `length` and the index properties of a string primitive (`"abc"?.["0"]` is `"a"`) are not modelled; such lookups are undefined here. Only own object keys and canonical array indices are read, which is all the configured paths (`pohStatus`, `xpAmount`) reach.
- `ethers.utils.isAddress` is a predicate parameter of `AnalyzeRoute.Get`.
- `process.env.ALCHEMY_API_KEY` is the `apiKey` parameter.
- The DeBank portfolio lookup (`checkDeBank`) is not modelled: it never throws and its result is never merged into the response.
- The 'contract' and 'rpc' strategies return fixed ineligible records; they are modelled only through `CheckProtocol`.
- Icons, colours, `type: 'token_balance'` and other presentation-only fields are not modelled.
- `Math.random` is a parameter:
  - `checkOnChainData` takes one draw in [0, 1);
  - `checkAirdropEligibility` takes one draw per drop, indexed by the drop's position. The source draws only for eligible drops, in the same order.
- `Date.now()` is one `nowMs` parameter. The source reads the clock once per drop.
- `new Date(deadline).getTime()` is an oracle from the deadline text to milliseconds.
- The dashboard's React state, rendering, wallet connection and single-chain analysis are not modelled. Neither are `src/app/page.tsx` outside lines 62-97, nor `setLoading`/`setStats`.
- The balance and gas totals of `checkAllChains` are summed as exact numbers. Their final `toFixed(4)` is not modelled.
- EligibilityRoute.Get: composes the corrected probe (`EligibilityChecker.CheckAirdropContracts`). As written the route answers every valid address with a server error; that behaviour is `EligibilityRoute.GetAsWritten`.
- The demonstration database in `src/lib/db/airdrops.ts` is context: it is modelled as data only (`Catalog`).

## Findings

| source | as written | input that shows it | evidently intended | confidence | as-written member | corrected member |
|---|---|---|---|---|---|---|
| src/lib/providers/eligibility.ts:103 | `for (constairdrop of contracts)` assigns to the undeclared name `constairdrop`. In module (strict) code that assignment throws a ReferenceError in the loop header, outside the per-contract `try`, so the whole probe rejects; the body's `airdrop` is undeclared as well | any address, with the shipped two-contract list | `for (const airdrop of contracts)`: probe each contract and keep those with a positive balance | high, not executed | EligibilityChecker.CheckAirdropContractsAsWritten | EligibilityChecker.CheckAirdropContracts |
| src/app/api/eligibility/route.ts:16-20 | the probe's rejection escapes `Promise.all`, which no `try` surrounds, so the handler throws and the framework answers with a server error | any valid address, with the shipped two-contract list | every valid address gets the merged answer | high, not executed | EligibilityRoute.GetAsWritten | EligibilityRoute.Get |
| src/lib/db/airdrops.ts:39 | the demonstration key is mixed-case, but the route lower-cases the address before the lookup (src/app/api/eligibility/route.ts:7,23) | the demonstration address itself, `0x1691565c9E5846b348Bf21707521e492614df376` | the key stored in lower case, so the demonstration address finds its two records | medium, not executed | EligibilityRoute.MockDbNeverMatches | EligibilityRoute.DemoAddressFound |

=== FILE: analyze_route.dfy ===
/** The single-chain analyze API route: endpoint selection between a metered
    Alchemy URL and a public URL, request validation, the provider calls and
    the error envelope. The provider (an ethers JSON-RPC provider) is a
    parameter: `provider(url, address)` is what the node at `url` answers. */
module AnalyzeRoute {
  import opened Wrappers
  import opened Text
  import opened Quantity
  import Metrics

  /** A chain of the route's own table: an optional Alchemy network slug and
      one public endpoint. */
  datatype ChainEntry = ChainEntry(name: string, alchemy: Option<string>, publicUrl: string)

  const Chains: map<int, ChainEntry> := map[
    1 := ChainEntry("Ethereum", Some("eth-mainnet"), "https://eth.llamarpc.com"),
    137 := ChainEntry("Polygon", Some("polygon-mainnet"), "https://polygon.llamarpc.com"),
    42161 := ChainEntry("Arbitrum", Some("arb-mainnet"), "https://arbitrum.llamarpc.com"),
    10 := ChainEntry("Optimism", Some("opt-mainnet"), "https://optimism.llamarpc.com"),
    8453 := ChainEntry("Base", Some("base-mainnet"), "https://base.llamarpc.com"),
    56 := ChainEntry("BSC", None, "https://bsc-dataseed.binance.org"),
    43114 := ChainEntry("Avalanche", None, "https://api.avax.network/ext/bc/C/rpc"),
    59144 := ChainEntry("Linea", None, "https://rpc.linea.build"),
    534352 := ChainEntry("Scroll", None, "https://rpc.scroll.io"),
    1088 := ChainEntry("Metis", None, "https://andromeda.metis.io/?owner=1088")
  ]

  /** JavaScript truthiness of a string that may be `undefined`. */
  predicate Present(s: Option<string>) {
    s.Some? && |s.value| > 0
  }

  function AlchemyUrl(slug: string, key: string): string {
    "https://" + slug + ".g.alchemy.com/v2/" + key
  }

  /** `getRpcUrl(chainId)`: the metered URL when an API key is configured and
      the chain has an Alchemy slug, the public URL otherwise. */
  function GetRpcUrl(chains: map<int, ChainEntry>, chainId: int, apiKey: Option<string>): (r: Result<string, string>)
    ensures r.Failure? <==> chainId !in chains
    ensures r.Failure? ==> r.error == "Chain not supported"
    ensures r.Success? && Present(apiKey) && Present(chains[chainId].alchemy) ==>
      r.value == AlchemyUrl(chains[chainId].alchemy.value, apiKey.value)
    ensures r.Success? && !(Present(apiKey) && Present(chains[chainId].alchemy)) ==>
      r.value == chains[chainId].publicUrl
  {
    if chainId !in chains then Failure("Chain not supported")
    else
      var chain := chains[chainId];
      if Present(apiKey) && Present(chain.alchemy) then Success(AlchemyUrl(chain.alchemy.value, apiKey.value))
      else Success(chain.publicUrl)
  }

  /** `rpcUrl.includes('alchemy') ? 'alchemy' : 'public'`. */
  function RpcType(url: string): (t: string)
    ensures t == "alchemy" <==> Contains(url, "alchemy")
    ensures t == "alchemy" || t == "public"
  {
    if Contains(url, "alchemy") then "alchemy" else "public"
  }

  /** No public URL of the table mentions "alchemy": each lacks one of its
      letters. */
  lemma PublicUrlsNotAlchemy()
    ensures forall id :: id in Chains ==> !Contains(Chains[id].publicUrl, "alchemy")
  {
    EthereumPolygonUrlsNotAlchemy();
    ArbitrumOptimismUrlsNotAlchemy();
    BaseBscUrlsNotAlchemy();
    AvalancheLineaUrlsNotAlchemy();
    ScrollMetisUrlsNotAlchemy();
  }

  lemma EthereumPolygonUrlsNotAlchemy()
    ensures !Contains("https://eth.llamarpc.com", "alchemy")
    ensures !Contains("https://polygon.llamarpc.com", "alchemy")
  {
    MissingCharNotContained("https://eth.llamarpc.com", "alchemy", 'y');
    MissingCharNotContained("https://polygon.llamarpc.com", "alchemy", 'e');
  }

  lemma ArbitrumOptimismUrlsNotAlchemy()
    ensures !Contains("https://arbitrum.llamarpc.com", "alchemy")
    ensures !Contains("https://optimism.llamarpc.com", "alchemy")
  {
    MissingCharNotContained("https://arbitrum.llamarpc.com", "alchemy", 'y');
    MissingCharNotContained("https://optimism.llamarpc.com", "alchemy", 'y');
  }

  lemma BaseBscUrlsNotAlchemy()
    ensures !Contains("https://base.llamarpc.com", "alchemy")
    ensures !Contains("https://bsc-dataseed.binance.org", "alchemy")
  {
    MissingCharNotContained("https://base.llamarpc.com", "alchemy", 'y');
    MissingCharNotContained("https://bsc-dataseed.binance.org", "alchemy", 'y');
  }

  lemma AvalancheLineaUrlsNotAlchemy()
    ensures !Contains("https://api.avax.network/ext/bc/C/rpc", "alchemy")
    ensures !Contains("https://rpc.linea.build", "alchemy")
  {
    MissingCharNotContained("https://api.avax.network/ext/bc/C/rpc", "alchemy", 'y');
    MissingCharNotContained("https://rpc.linea.build", "alchemy", 'y');
  }

  lemma ScrollMetisUrlsNotAlchemy()
    ensures !Contains("https://rpc.scroll.io", "alchemy")
    ensures !Contains("https://andromeda.metis.io/?owner=1088", "alchemy")
  {
    MissingCharNotContained("https://rpc.scroll.io", "alchemy", 'y');
    MissingCharNotContained("https://andromeda.metis.io/?owner=1088", "alchemy", 'y');
  }

  /** Every metered URL mentions "alchemy". */
  lemma AlchemyUrlIsAlchemy(slug: string, key: string)
    ensures Contains(AlchemyUrl(slug, key), "alchemy")
  {
    ContainsInfix("https://" + slug + ".g.", "alchemy", ".com/v2/" + key);
    assert AlchemyUrl(slug, key) == ("https://" + slug + ".g.") + "alchemy" + (".com/v2/" + key);
  }

  /** For a supported chain, the reported `rpcType` is 'alchemy' exactly when
      a key is configured and the chain has a slug. */
  lemma RpcTypeIffMetered(chainId: int, apiKey: Option<string>)
    requires chainId in Chains
    ensures RpcType(GetRpcUrl(Chains, chainId, apiKey).value) == "alchemy" <==>
      Present(apiKey) && Present(Chains[chainId].alchemy)
  {
    PublicUrlsNotAlchemy();
    if Present(apiKey) && Present(Chains[chainId].alchemy) {
      AlchemyUrlIsAlchemy(Chains[chainId].alchemy.value, apiKey.value);
    }
  }

  /** Chains without a slug get their public URL whatever the key. */
  lemma UnsluggedChainsArePublic(chainId: int, apiKey: Option<string>)
    requires chainId in {56, 43114, 59144, 534352, 1088}
    ensures GetRpcUrl(Chains, chainId, apiKey) == Success(Chains[chainId].publicUrl)
  {
  }

  /** What the node at the selected URL does for the request. */
  datatype ProviderReply =
    | Unreachable(reason: string)          // `provider.getNetwork()` rejected
    | CallFailed(reason: string)           // `getBalance` or `getTransactionCount` rejected
    | Answered(balanceWei: nat, txCount: nat)

  type Provider = (string, string) -> ProviderReply

  /** The success body; the balance stays in wei (`formatEther` and `toFixed`
      are not modelled), gas in thousandths. */
  datatype SuccessBody = SuccessBody(
    address: string,
    chainId: int,
    chainName: string,
    rpcType: string,
    balanceWei: nat,
    txCount: nat,
    derived: Metrics.Derived)

  datatype Response =
    | Ok(body: SuccessBody)
    | BadRequest(error: string)
    | ServerError(message: string, chainId: Quantity, suggestion: string)

  function Status(r: Response): int {
    match r
    case Ok(_) => 200
    case BadRequest(_) => 400
    case ServerError(_, _, _) => 500
  }

  /** The response, and the URL a provider was built on, if one was. */
  datatype Handled = Handled(response: Response, providerUrl: Option<string>)

  const AlchemyHint: string := "Try using Public RPC by removing ALCHEMY_API_KEY"
  const RetryHint: string := "Network temporarily unavailable. Please try again."

  /** The suggestion attached to an upstream error. */
  function Suggestion(message: string): (s: string)
    ensures s == AlchemyHint <==> Contains(message, "Alchemy")
    ensures s == AlchemyHint || s == RetryHint
  {
    if Contains(message, "Alchemy") then AlchemyHint else RetryHint
  }

  /** `searchParams.get(name) || fallback`. */
  function ParamOr(params: map<string, string>, name: string, fallback: string): string {
    if name in params && |params[name]| > 0 then params[name] else fallback
  }

  /** `parseInt(searchParams.get('chainId') || '1')`. */
  function RequestedChain(params: map<string, string>): (q: Quantity)
    ensures "chainId" !in params || params["chainId"] == "" ==> q == Num(1)
    ensures "chainId" in params && params["chainId"] != "" ==> q == ParseAuto(params["chainId"])
  {
    ParseAuto(ParamOr(params, "chainId", "1"))
  }

  /** `address && ethers.utils.isAddress(address)`: the parameter must be
      present and non-empty before the validator is consulted. */
  predicate ValidAddress(params: map<string, string>, isAddress: string -> bool)
    ensures ValidAddress(params, isAddress) ==> "address" in params && params["address"] != ""
    ensures "address" in params && params["address"] != "" ==>
      (ValidAddress(params, isAddress) <==> isAddress(params["address"]))
  {
    "address" in params && |params["address"]| > 0 && isAddress(params["address"])
  }

  /** The `GET` handler. `apiKey` is `ALCHEMY_API_KEY`, `isAddress` stands for
      `ethers.utils.isAddress`. */
  function Get(params: map<string, string>, apiKey: Option<string>, isAddress: string -> bool, provider: Provider): (h: Handled)
    ensures Status(h.response) == 400 <==>
      !ValidAddress(params, isAddress) || RequestedChain(params).NaN? || RequestedChain(params).n !in Chains
    ensures !ValidAddress(params, isAddress) ==> h.response == BadRequest("Invalid address format")
    ensures h.response.BadRequest? ==> h.providerUrl.None?
    ensures !h.response.BadRequest? ==>
      var id := RequestedChain(params).n;
      h.providerUrl == Some(GetRpcUrl(Chains, id, apiKey).value)
    ensures h.response.Ok? ==>
      var b := h.response.body;
      && b.chainId == RequestedChain(params).n
      && b.chainName == Chains[b.chainId].name
      && b.rpcType == RpcType(h.providerUrl.value)
      && b.derived == Metrics.Derive(b.chainId, b.txCount)
    ensures h.response.ServerError? ==>
      && h.response.chainId == ParseAuto(ParamOr(params, "chainId", "0"))
      && (h.response.suggestion == AlchemyHint <==> Contains(h.response.message, "Alchemy"))
    ensures ValidAddress(params, isAddress) && Status(h.response) == 400 ==>
      h.response == BadRequest("Chain not supported")
    ensures ValidAddress(params, isAddress) && !h.response.BadRequest? ==>
      var reply := provider(h.providerUrl.value, params["address"]);
      && (h.response.Ok? <==> reply.Answered?)
      && (reply.Answered? ==>
            && h.response.body.address == params["address"]
            && h.response.body.balanceWei == reply.balanceWei
            && h.response.body.txCount == reply.txCount)
      && (reply.Unreachable? ==> h.response.message == "Network unreachable: " + reply.reason)
      && (reply.CallFailed? ==> h.response.message == reply.reason)
  {
    var chainId := RequestedChain(params);
    if !ValidAddress(params, isAddress) then Handled(BadRequest("Invalid address format"), None)
    else if chainId.NaN? || chainId.n !in Chains then Handled(BadRequest("Chain not supported"), None)
    else
      var address := params["address"];
      var url := GetRpcUrl(Chains, chainId.n, apiKey).value;
      var errorChain := ParseAuto(ParamOr(params, "chainId", "0"));
      match provider(url, address)
      case Unreachable(reason) =>
        var message := "Network unreachable: " + reason;
        Handled(ServerError(message, errorChain, Suggestion(message)), Some(url))
      case CallFailed(reason) =>
        Handled(ServerError(reason, errorChain, Suggestion(reason)), Some(url))
      case Answered(balance, tx) =>
        var body := SuccessBody(address, chainId.n, Chains[chainId.n].name, RpcType(url), balance, tx, Metrics.Derive(chainId.n, tx));
        Handled(Ok(body), Some(url))
  }

  /** A rejected request does not depend on the provider at all: validation
      finishes before any network access. */
  lemma RejectionIgnoresProvider(params: map<string, string>, apiKey: Option<string>, isAddress: string -> bool, p: Provider, q: Provider)
    requires Get(params, apiKey, isAddress, p).response.BadRequest?
    ensures Get(params, apiKey, isAddress, q) == Get(params, apiKey, isAddress, p)
  {
  }

  /** Without a `chainId` parameter a valid address is analysed on Ethereum,
      while an error envelope would report chain 0. */
  lemma MissingChainDefaults(params: map<string, string>, apiKey: Option<string>, isAddress: string -> bool, provider: Provider)
    requires "chainId" !in params && ValidAddress(params, isAddress)
    ensures RequestedChain(params) == Num(1)
    ensures Get(params, apiKey, isAddress, provider).response.Ok? ==>
      Get(params, apiKey, isAddress, provider).response.body.chainId == 1
    ensures Get(params, apiKey, isAddress, provider).response.ServerError? ==>
      Get(params, apiKey, isAddress, provider).response.chainId == Num(0)
  {
    assert "1"[1..] == "";
    assert DigitRun("1", 10) == 1;
    assert "1"[..1] == "1";
    assert DigitRun("0", 10) == 1;
    assert "0"[..1] == "0";
  }
}

=== FILE: catalog.dfy ===
/** The static catalogues the eligibility code reads: the reward programs that
    can be checked and the demonstration eligibility records. */
module Catalog {
  import opened Text
  import opened Wrappers

  /** A reward program. `checker` selects the strategy ('api', 'contract',
      'rpc'); the remaining fields are the strategy's parameters and are
      absent where the catalogue leaves them out. */
  datatype Protocol = Protocol(
    id: string,
    name: string,
    ticker: string,
    status: string,
    claimUrl: Option<string>,
    checker: string,
    endpoint: Option<string>,
    responsePath: Option<string>,
    estimateField: Option<string>,
    contract: Option<string>,
    rpcMethod: Option<string>,
    deadline: Option<string>)

  const ActiveProtocols: seq<Protocol> := [
    Protocol("linea-voyage", "Linea Voyage", "LINEA", "active", Some("https://linea.build/claim"), "api",
      Some("https://linea-xp-poh-api.linea.build/api/poh/{address}"), Some("pohStatus"), Some("xpAmount"),
      None, None, None),
    Protocol("starknet-provisions", "Starknet Provisions", "STRK", "claimable", Some("https://provisions.starknet.io"), "contract",
      None, None, None, Some("0x..."), None, None),
    Protocol("eigenlayer", "EigenLayer Season 2", "EIGEN", "active", None, "rpc",
      None, None, None, Some("0x858646372CCbE1c2aFA3E5cf16b13dbB12D6EB34"), Some("getClaimableRewards"), None)
  ]

  /** One demonstration record: the program, an amount and a status. */
  datatype MockEntry = MockEntry(protocol: string, amount: real, status: string)

  /** The demonstration address as the database spells it (mixed case). */
  const DemoAddress: string := "0x1691565c9E5846b348Bf21707521e492614df376"

  const DemoEntries: seq<MockEntry> := [
    MockEntry("Linea", 2500.0, "claimable"),
    MockEntry("EigenLayer", 1200.0, "pending")
  ]

  /** The demonstration database as shipped, keyed by the mixed-case address. */
  const MockEligibilityDb: map<string, seq<MockEntry>> := map[DemoAddress := DemoEntries]

  /** The same database keyed by the lower-case address, the form every
      lookup uses. */
  const NormalisedMockDb: map<string, seq<MockEntry>> := map[Lower(DemoAddress) := DemoEntries]
}

=== FILE: dashboard.dfy ===
/** The dashboard's client-side logic: the multi-chain aggregation of
    per-chain analyses and the tiered airdrop score shown to the user. Each
    per-chain request is an oracle giving the decoded body of a successful
    response, or `None` when the request failed, was rejected or did not
    decode. */
module Dashboard {
  import opened Wrappers
  import opened Json
  import opened Decimal

  /** A JavaScript number that may be `-Infinity` (what `Math.max()` of
      nothing yields). */
  datatype Extended = NegInf | Finite(x: real)

  predicate AtLeast(e: Extended, y: real) {
    e.Finite? && e.x >= y
  }

  /** `> limit`, false for `-Infinity`. */
  predicate Above(e: Extended, limit: real) {
    e.Finite? && e.x > limit
  }

  function MaxExt(a: Extended, b: Extended): (m: Extended)
    ensures m == a || m == b
    ensures a.Finite? ==> AtLeast(m, a.x)
    ensures b.Finite? ==> AtLeast(m, b.x)
    ensures m.NegInf? <==> a.NegInf? && b.NegInf?
  {
    match (a, b)
    case (NegInf, _) => b
    case (_, NegInf) => a
    case (Finite(x), Finite(y)) => if x >= y then a else b
  }

  /** `(v || 0)` summed as a number: a present number counts, anything
      missing or `null` counts 0. */
  function NumberOrZero(v: Value): (x: real)
    ensures v.Some? && v.value.JNum? ==> x == v.value.n
    ensures !Truthy(v) ==> x == 0.0
  {
    if v.Some? && v.value.JNum? then v.value.n else 0.0
  }

  /** `parseFloat(v || 0)`, `None` for `NaN`: anything falsy reads as 0, and
      anything else as `parseFloat` reads its string form. */
  function FloatOrZero(v: Value): (x: Option<real>)
    ensures !Truthy(v) ==> x == Some(0.0)
    ensures v.Some? && v.value.JNum? ==> x == Some(v.value.n)
    ensures v.Some? && v.value.JStr? && |v.value.s| > 0 ==> x == ParseFloat(v.value.s)
    ensures v == Some(JBool(true)) || v == Some(JArr([])) || (v.Some? && v.value.JObj?) ==> x.None?
  {
    if !Truthy(v) then Some(0.0) else ParseFloatValue(v.value)
  }

  /** A non-empty array reads as its first element would: `["2.5"]` and
      `[2.5]` add what `"2.5"` and `2.5` add. */
  lemma ArrayReadsFirstElement(items: seq<Json>)
    requires |items| > 0
    requires items[0].JNum? || (items[0].JStr? && |items[0].s| > 0)
    ensures FloatOrZero(Some(JArr(items))) == FloatOrZero(Some(items[0]))
  {
  }

  /** A balance reported inside an array still counts. */
  lemma ArrayBalanceExample()
    ensures FloatOrZero(Some(JArr([JStr("1.5")]))) == Some(1.5)
  {
    ParseFloatExample();
  }

  /** `NaN` absorbs every later addition. */
  function AddFloat(a: Option<real>, b: Option<real>): (c: Option<real>)
    ensures c.Some? <==> a.Some? && b.Some?
  {
    if a.Some? && b.Some? then Some(a.value + b.value) else None
  }

  /** `promises` followed by `results.filter(r => r !== null)`: the bodies of
      the chains that answered, in chain order. */
  function ValidResults(chains: seq<int>, answer: int -> Option<Json>): (rs: seq<Json>)
    ensures |rs| <= |chains|
    ensures forall k :: 0 <= k < |rs| ==> rs[k] != JNull
  {
    if |chains| == 0 then []
    else
      var head := answer(chains[0]);
      (if head.Some? && head.value != JNull then [head.value] else []) + ValidResults(chains[1..], answer)
  }

  predicate Answered(answer: int -> Option<Json>, chainId: int) {
    answer(chainId).Some? && answer(chainId).value != JNull
  }

  /** How many of the chains answered. */
  function CountAnswered(chains: seq<int>, answer: int -> Option<Json>): nat {
    if |chains| == 0 then 0
    else (if Answered(answer, chains[0]) then 1 else 0) + CountAnswered(chains[1..], answer)
  }

  lemma {:induction false} ValidResultsCount(chains: seq<int>, answer: int -> Option<Json>)
    ensures |ValidResults(chains, answer)| == CountAnswered(chains, answer)
  {
    if |chains| > 0 {
      ValidResultsCount(chains[1..], answer);
    }
  }

  function SumNumbers(rs: seq<Json>, key: string): real {
    if |rs| == 0 then 0.0 else NumberOrZero(Prop(Some(rs[0]), key)) + SumNumbers(rs[1..], key)
  }

  function SumFloats(rs: seq<Json>, key: string): Option<real> {
    if |rs| == 0 then Some(0.0) else AddFloat(FloatOrZero(Prop(Some(rs[0]), key)), SumFloats(rs[1..], key))
  }

  /** `Math.max(...rs.map(r => r.activeDaysEstimate || 0))`. */
  function MaxDays(rs: seq<Json>): (m: Extended)
    ensures m.NegInf? <==> |rs| == 0
    ensures forall k :: 0 <= k < |rs| ==> AtLeast(m, NumberOrZero(Prop(Some(rs[k]), "activeDaysEstimate")))
    ensures m.Finite? ==> exists k :: 0 <= k < |rs| && m.x == NumberOrZero(Prop(Some(rs[k]), "activeDaysEstimate"))
  {
    if |rs| == 0 then NegInf
    else
      var rest := MaxDays(rs[1..]);
      var m := MaxExt(Finite(NumberOrZero(Prop(Some(rs[0]), "activeDaysEstimate"))), rest);
      assert forall k :: 1 <= k < |rs| ==> rs[k] == rs[1..][k - 1];
      if m == rest && rest.Finite? then
        var j :| 0 <= j < |rs[1..]| && rest.x == NumberOrZero(Prop(Some(rs[1..][j]), "activeDaysEstimate"));
        assert rs[j + 1] == rs[1..][j];
        m
      else m
  }

  /** The sum over every chain, a failed chain contributing 0: the
      filtered sum is the same. */
  function SumOverChains(chains: seq<int>, answer: int -> Option<Json>, key: string): real {
    if |chains| == 0 then 0.0
    else
      (if Answered(answer, chains[0]) then NumberOrZero(Prop(Some(answer(chains[0]).value), key)) else 0.0)
      + SumOverChains(chains[1..], answer, key)
  }

  lemma {:induction false} SumNumbersAppend(a: seq<Json>, b: seq<Json>, key: string)
    ensures SumNumbers(a + b, key) == SumNumbers(a, key) + SumNumbers(b, key)
  {
    if |a| == 0 {
      assert a + b == b;
    } else {
      assert (a + b)[0] == a[0];
      assert (a + b)[1..] == a[1..] + b;
      SumNumbersAppend(a[1..], b, key);
    }
  }

  lemma {:induction false} FailedChainsCountZero(chains: seq<int>, answer: int -> Option<Json>, key: string)
    ensures SumNumbers(ValidResults(chains, answer), key) == SumOverChains(chains, answer, key)
  {
    if |chains| > 0 {
      var head := answer(chains[0]);
      var first: seq<Json> := if head.Some? && head.value != JNull then [head.value] else [];
      SumNumbersAppend(first, ValidResults(chains[1..], answer), key);
      FailedChainsCountZero(chains[1..], answer, key);
      if first != [] {
        assert first[1..] == [];
      }
    }
  }

  datatype Aggregate = Aggregate(
    chainName: string,
    txCount: real,
    balance: Option<real>,
    gasSpent: Option<real>,
    contractInteractions: real,
    chainsChecked: nat,
    activeDaysEstimate: Extended)

  /** `checkAllChains`: nothing happens without an address; otherwise one
      request per chain, the failures dropped, the rest summed. */
  function CheckAllChains(address: string, chains: seq<int>, answer: int -> Option<Json>): (r: Option<Aggregate>)
    ensures r.None? <==> address == ""
    ensures r.Some? ==>
      && r.value.chainName == "Multi-Chain Aggregate"
      && r.value.chainsChecked == CountAnswered(chains, answer)
      && r.value.txCount == SumOverChains(chains, answer, "txCount")
      && r.value.contractInteractions == SumOverChains(chains, answer, "contractInteractions")
      && (r.value.activeDaysEstimate.NegInf? <==> r.value.chainsChecked == 0)
      && (forall k :: 0 <= k < |chains| && Answered(answer, chains[k]) ==>
            AtLeast(r.value.activeDaysEstimate, NumberOrZero(Prop(answer(chains[k]), "activeDaysEstimate"))))
      && r.value.balance == FloatSumOverChains(chains, answer, "balance")
      && r.value.gasSpent == FloatSumOverChains(chains, answer, "gasSpent")
    ensures r.Some? && r.value.activeDaysEstimate.Finite? ==>
      exists k :: (0 <= k < |chains| && Answered(answer, chains[k])
                   && r.value.activeDaysEstimate.x == NumberOrZero(Prop(answer(chains[k]), "activeDaysEstimate")))
  {
    if address == "" then None
    else
      var rs := ValidResults(chains, answer);
      ValidResultsCount(chains, answer);
      FailedChainsCountZero(chains, answer, "txCount");
      FailedChainsCountZero(chains, answer, "contractInteractions");
      AnsweredAreValid(chains, answer);
      ValidAreAnswered(chains, answer);
      FailedChainsAddNoFloat(chains, answer, "balance");
      FailedChainsAddNoFloat(chains, answer, "gasSpent");
      MaxDaysAttained(chains, answer);
      Some(Aggregate(
        "Multi-Chain Aggregate",
        SumNumbers(rs, "txCount"),
        SumFloats(rs, "balance"),
        SumFloats(rs, "gasSpent"),
        SumNumbers(rs, "contractInteractions"),
        |rs|,
        MaxDays(rs)))
  }

  /** Filtering chains in two parts concatenates the parts' results, so the
      bodies keep chain order. */
  lemma {:induction false} ValidResultsAppend(a: seq<int>, b: seq<int>, answer: int -> Option<Json>)
    ensures ValidResults(a + b, answer) == ValidResults(a, answer) + ValidResults(b, answer)
  {
    if |a| == 0 {
      assert a + b == b;
    } else {
      var head := answer(a[0]);
      var first: seq<Json> := if head.Some? && head.value != JNull then [head.value] else [];
      assert (a + b)[0] == a[0];
      assert (a + b)[1..] == a[1..] + b;
      ValidResultsAppend(a[1..], b, answer);
      assert first + (ValidResults(a[1..], answer) + ValidResults(b, answer))
          == (first + ValidResults(a[1..], answer)) + ValidResults(b, answer);
    }
  }

  /** One chain contributes its body iff it answered. */
  lemma ValidResultsSingle(c: int, answer: int -> Option<Json>)
    ensures ValidResults([c], answer) == (if Answered(answer, c) then [answer(c).value] else [])
  {
    assert [c][1..] == [];
  }

  /** `x` is the body of one of the chains that answered. */
  predicate FromAnsweringChain(chains: seq<int>, answer: int -> Option<Json>, x: Json) {
    exists k :: 0 <= k < |chains| && Answered(answer, chains[k]) && answer(chains[k]).value == x
  }

  /** Every valid result is the body of a chain that answered. */
  lemma {:induction false} ValidAreAnswered(chains: seq<int>, answer: int -> Option<Json>)
    ensures forall x :: x in ValidResults(chains, answer) ==> FromAnsweringChain(chains, answer, x)
  {
    if |chains| > 0 {
      ValidAreAnswered(chains[1..], answer);
      var rest := ValidResults(chains[1..], answer);
      var head := answer(chains[0]);
      var first: seq<Json> := if head.Some? && head.value != JNull then [head.value] else [];
      assert ValidResults(chains, answer) == first + rest;
      forall x | x in ValidResults(chains, answer) ensures FromAnsweringChain(chains, answer, x) {
        if x !in rest {
          assert Answered(answer, chains[0]) && head.value == x;
        } else {
          var k :| 0 <= k < |chains[1..]| && Answered(answer, chains[1..][k]) && answer(chains[1..][k]).value == x;
          assert chains[1..][k] == chains[k + 1];
        }
      }
    }
  }

  /** `parseFloat(r[key] || 0)` summed over every chain, a failed chain
      adding 0 and a `NaN` making the whole sum `NaN`. */
  function FloatSumOverChains(chains: seq<int>, answer: int -> Option<Json>, key: string): Option<real> {
    if |chains| == 0 then Some(0.0)
    else if Answered(answer, chains[0]) then
      AddFloat(FloatOrZero(Prop(answer(chains[0]), key)), FloatSumOverChains(chains[1..], answer, key))
    else FloatSumOverChains(chains[1..], answer, key)
  }

  /** The float sum over the valid results equals the sum over all chains. */
  lemma {:induction false} FailedChainsAddNoFloat(chains: seq<int>, answer: int -> Option<Json>, key: string)
    ensures SumFloats(ValidResults(chains, answer), key) == FloatSumOverChains(chains, answer, key)
  {
    if |chains| > 0 {
      FailedChainsAddNoFloat(chains[1..], answer, key);
      var rest := ValidResults(chains[1..], answer);
      if Answered(answer, chains[0]) {
        var rs := [answer(chains[0]).value] + rest;
        assert ValidResults(chains, answer) == rs;
        assert rs[0] == answer(chains[0]).value && rs[1..] == rest;
        assert answer(chains[0]) == Some(rs[0]);
      } else {
        assert ValidResults(chains, answer) == rest;
      }
    }
  }

  /** The float total is `NaN` iff some answering chain's field reads as `NaN`. */
  lemma {:induction false} FloatSumNaN(chains: seq<int>, answer: int -> Option<Json>, key: string)
    ensures FloatSumOverChains(chains, answer, key).None? <==>
      exists k :: 0 <= k < |chains| && Answered(answer, chains[k]) && FloatOrZero(Prop(answer(chains[k]), key)).None?
  {
    if |chains| > 0 {
      FloatSumNaN(chains[1..], answer, key);
      forall k | 1 <= k < |chains| ensures chains[k] == chains[1..][k - 1] { }
    }
  }

  /** The maximum of active days over the valid results, when finite, is the
      value of some answering chain. */
  lemma MaxDaysAttained(chains: seq<int>, answer: int -> Option<Json>)
    ensures var days := MaxDays(ValidResults(chains, answer));
      days.Finite? ==>
        exists k :: (0 <= k < |chains| && Answered(answer, chains[k])
                     && days.x == NumberOrZero(Prop(answer(chains[k]), "activeDaysEstimate")))
  {
    var rs := ValidResults(chains, answer);
    var days := MaxDays(rs);
    if days.Finite? {
      ValidAreAnswered(chains, answer);
      var j :| 0 <= j < |rs| && days.x == NumberOrZero(Prop(Some(rs[j]), "activeDaysEstimate"));
      assert rs[j] in rs;
      var k :| 0 <= k < |chains| && Answered(answer, chains[k]) && answer(chains[k]).value == rs[j];
      assert answer(chains[k]) == Some(rs[j]);
    }
  }

  /** Every chain that answered has its body among the valid results. */
  lemma {:induction false} AnsweredAreValid(chains: seq<int>, answer: int -> Option<Json>)
    ensures forall k :: 0 <= k < |chains| && Answered(answer, chains[k]) ==>
              answer(chains[k]).value in ValidResults(chains, answer)
  {
    if |chains| > 0 {
      AnsweredAreValid(chains[1..], answer);
      forall k | 0 <= k < |chains| && Answered(answer, chains[k])
        ensures answer(chains[k]).value in ValidResults(chains, answer)
      {
        if k > 0 {
          assert chains[k] == chains[1..][k - 1];
        }
      }
    }
  }

  /** `getAirdropScore`: 20 above 10 transactions, 30 more above 50, 20
      more above 100, and 30 for more than 30 active days, capped at 100. */
  function GetAirdropScore(stats: Option<Aggregate>): (score: nat)
    ensures score <= 100
    ensures stats.None? ==> score == 0
    ensures stats.Some? ==>
      && (score == 100 <==> stats.value.txCount > 100.0 && Above(stats.value.activeDaysEstimate, 30.0))
      && (score == 0 <==> stats.value.txCount <= 10.0 && !Above(stats.value.activeDaysEstimate, 30.0))
      && (score >= 80 ==> stats.value.txCount > 10.0 && Above(stats.value.activeDaysEstimate, 30.0))
    ensures score in {0, 20, 30, 50, 70, 80, 100}
    ensures stats.Some? ==> score == Bonuses(stats.value)
  {
    if stats.None? then 0 else MinInt(Bonuses(stats.value), 100)
  }

  /** The four bonuses before the cap. */
  function Bonuses(s: Aggregate): (b: nat)
    ensures b <= 20 + 30 + 20 + 30
  {
    (if s.txCount > 10.0 then 20 else 0)
    + (if s.txCount > 50.0 then 30 else 0)
    + (if s.txCount > 100.0 then 20 else 0)
    + (if Above(s.activeDaysEstimate, 30.0) then 30 else 0)
  }

  /** `Math.min`. */
  function MinInt(a: int, b: int): (m: int)
    ensures m <= a && m <= b && (m == a || m == b)
  {
    if a <= b then a else b
  }

  /** The cap never binds: the four bonuses add up to at most 100, so the
      score is their plain sum, and exactly 100 when all four apply. */
  lemma CapNeverBinds(stats: Aggregate)
    ensures Bonuses(stats) <= 100
    ensures GetAirdropScore(Some(stats)) == Bonuses(stats)
    ensures stats.txCount > 100.0 && Above(stats.activeDaysEstimate, 30.0) ==> GetAirdropScore(Some(stats)) == 100
  {
  }

  /** More transactions and more active days never lower the score. */
  lemma ScoreMonotone(a: Aggregate, b: Aggregate)
    requires a.txCount <= b.txCount
    requires Above(a.activeDaysEstimate, 30.0) ==> Above(b.activeDaysEstimate, 30.0)
    ensures GetAirdropScore(Some(a)) <= GetAirdropScore(Some(b))
  {
  }

  /** When every chain fails the aggregate is empty and scores 0. */
  lemma AllFailedScoresZero(address: string, chains: seq<int>, answer: int -> Option<Json>)
    requires address != ""
    requires forall k :: 0 <= k < |chains| ==> !Answered(answer, chains[k])
    ensures CheckAllChains(address, chains, answer).value.chainsChecked == 0
    ensures GetAirdropScore(CheckAllChains(address, chains, answer)) == 0
  {
    NoAnswersNoResults(chains, answer);
  }

  lemma {:induction false} NoAnswersNoResults(chains: seq<int>, answer: int -> Option<Json>)
    requires forall k :: 0 <= k < |chains| ==> !Answered(answer, chains[k])
    ensures ValidResults(chains, answer) == []
    ensures SumOverChains(chains, answer, "txCount") == 0.0
  {
    if |chains| > 0 {
      assert !Answered(answer, chains[0]);
      NoAnswersNoResults(chains[1..], answer);
    }
  }
}

=== FILE: decimal.dfy ===
/** JavaScript `parseFloat` on the plain decimal strings the program
    produces and consumes (`"1.2345"`, `"2500"`, `"TBA"`): the longest
    prefix of the form digits, optionally `.` and more digits. */
module Decimal {
  import opened Wrappers
  import opened Quantity
  import opened Json

  function Pow10(k: nat): (p: nat)
    ensures p >= 1
  {
    if k == 0 then 1 else 10 * Pow10(k - 1)
  }

  predicate AllDigits(s: string) {
    forall i :: 0 <= i < |s| ==> IsDigitOf(s[i], 10)
  }

  /** The number written `whole.frac`. */
  function FixedPoint(whole: string, frac: string): (x: real)
    requires AllDigits(whole) && AllDigits(frac)
    ensures x >= DigitsValue(whole, 10) as real
  {
    DigitsValue(whole, 10) as real + DigitsValue(frac, 10) as real / Pow10(|frac|) as real
  }

  /** `parseFloat(s)`, with `None` for `NaN`. */
  function ParseFloat(s: string): (r: Option<real>)
    ensures r.Some? ==> r.value >= 0.0
    ensures |s| > 0 && IsDigitOf(s[0], 10) ==> r.Some?
    ensures |s| == 0 || (!IsDigitOf(s[0], 10) && s[0] != '.') ==> r.None?
  {
    var i := DigitRun(s, 10);
    assert AllDigits(s[..i]);
    if i < |s| && s[i] == '.' then
      var tail := s[i + 1..];
      var j := DigitRun(tail, 10);
      assert AllDigits(tail[..j]);
      if i == 0 && j == 0 then None
      else Some(FixedPoint(s[..i], tail[..j]))
    else if i == 0 then None
    else Some(DigitsValue(s[..i], 10) as real)
  }

  /** `parseFloat(String(j))` for a defined value, `None` for `NaN`. A number
      reads as itself and a string through `ParseFloat`. An array reads through
      its comma-joined text, whose numeric prefix is that of its first element
      (`[]` joins as the empty string). `"null"`, `"true"`, `"false"` and
      `"[object Object]"` have no numeric prefix. */
  function ParseFloatValue(j: Json): (x: Option<real>)
    ensures j.JArr? && |j.items| > 0 ==> x == ParseFloatValue(j.items[0])
    ensures j.JNull? || j.JBool? || j.JObj? || j == JArr([]) ==> x.None?
  {
    match j
    case JNum(n) => Some(n)
    case JStr(s) => ParseFloat(s)
    case JArr(items) => if |items| == 0 then None else ParseFloatValue(items[0])
    case _ => None
  }

  /** A whole part, a fraction and any text not continuing the number read
      back as whole + fraction / 10^|fraction|. */
  lemma ParseFloatReads(whole: string, frac: string, rest: string)
    requires |whole| > 0 && AllDigits(whole) && AllDigits(frac)
    requires |rest| == 0 || !IsDigitOf(rest[0], 10)
    ensures ParseFloat(whole + "." + frac + rest) == Some(FixedPoint(whole, frac))
  {
    var s := whole + "." + frac + rest;
    var tail := frac + rest;
    assert s == whole + (['.'] + tail);
    assert DigitRun(s, 10) == |whole| by {
      DigitRunPrefix(whole, ['.'] + tail, 10);
    }
    assert s[..|whole|] == whole;
    assert s[|whole|] == '.';
    assert s[|whole| + 1..] == tail;
    assert DigitRun(tail, 10) == |frac| by {
      DigitRunPrefix(frac, rest, 10);
    }
    assert tail[..|frac|] == frac;
    assert s[|whole| + 1..][..|frac|] == frac;
  }

  /** Digits followed by text that neither continues them nor starts a
      fraction read back as the whole number. */
  lemma ParseFloatWhole(whole: string, rest: string)
    requires |whole| > 0 && AllDigits(whole)
    requires |rest| == 0 || (!IsDigitOf(rest[0], 10) && rest[0] != '.')
    ensures ParseFloat(whole + rest) == Some(DigitsValue(whole, 10) as real)
  {
    DigitRunPrefix(whole, rest, 10);
    assert (whole + rest)[..|whole|] == whole;
  }

  /** A balance as the analysis reports it. */
  lemma ParseFloatExample()
    ensures ParseFloat("1.5") == Some(1.5)
  {
    ParseFloatReads("1", "5", "");
    assert "1" + "." + "5" + "" == "1.5";
  }

  /** `"TBA"` and the empty string are `NaN`. */
  lemma NotANumber()
    ensures ParseFloat("TBA") == None
    ensures ParseFloat("") == None
  {
    assert !IsDigitOf('T', 10);
  }
}

=== FILE: eligibility_checker.dfy ===
/** The eligibility checkers: strategy dispatch by tag, the remote-API check
    with its dotted-path lookup, the loop that keeps eligible results and skips
    failing programs, and the direct ERC-20 `balanceOf` probe of known airdrop
    token contracts. `fetch(url)` and `ethCall(to, data)` stand for the network. */
module EligibilityChecker {
  import opened Wrappers
  import opened Json
  import opened Text
  import opened Quantity
  import opened HexValue
  import opened Catalog

  /** One normalised eligibility record, as merged into the route's response.
      Presentation fields (icon, colour) are not modelled. */
  datatype Airdrop = Airdrop(
    name: Option<string>,
    ticker: Option<string>,
    eligible: bool,
    amount: Value,
    claimUrl: Option<string>,
    deadline: Option<string>,
    status: Option<string>)

  /** What `fetch(url).then(r => r.json())` produced. */
  datatype FetchReply = FetchFailed | Fetched(body: Json)

  type Fetcher = string -> FetchReply

  /** `path.split('.').reduce((o, p) => o?.[p], obj)` over the pieces. */
  function FollowPath(v: Value, keys: seq<string>): Value
    decreases |keys|
  {
    if |keys| == 0 then v else FollowPath(Prop(v, keys[0]), keys[1..])
  }

  /** `getValueByPath(obj, path)`: total; a missing step yields `undefined`. */
  function GetValueByPath(obj: Value, path: string): (r: Value)
    ensures obj.None? || obj == Some(JNull) ==> r.None?
    ensures '.' !in path ==> r == Prop(obj, path)
  {
    var keys := Split(path, '.');
    UndefinedStaysUndefined(keys[1..]);
    assert '.' !in path ==> keys == [path] && keys[1..] == [] && FollowPath(obj, keys) == FollowPath(Prop(obj, path), []);
    FollowPath(obj, keys)
  }

  /** Following a path in two stages is following it at once. */
  lemma {:induction false} FollowPathAppend(v: Value, a: seq<string>, b: seq<string>)
    ensures FollowPath(v, a + b) == FollowPath(FollowPath(v, a), b)
    decreases |a|
  {
    if |a| > 0 {
      assert (a + b)[0] == a[0];
      assert (a + b)[1..] == a[1..] + b;
      FollowPathAppend(Prop(v, a[0]), a[1..], b);
    } else {
      assert a + b == b;
    }
  }

  /** Once `undefined`, always `undefined`: optional chaining never throws. */
  lemma {:induction false} UndefinedStaysUndefined(keys: seq<string>)
    ensures FollowPath(None, keys) == None
    decreases |keys|
  {
    if |keys| > 0 {
      UndefinedStaysUndefined(keys[1..]);
    }
  }

  /** `getValueByPath(o, a + "." + b) == getValueByPath(getValueByPath(o, a), b)`. */
  lemma PathComposition(obj: Value, a: string, b: string)
    ensures GetValueByPath(obj, a + "." + b) == GetValueByPath(GetValueByPath(obj, a), b)
  {
    SplitJoin(a, b, '.');
    assert a + "." + b == a + ['.'] + b;
    FollowPathAppend(obj, Split(a, '.'), Split(b, '.'));
  }

  /** A missing first step makes the whole path `undefined`. */
  lemma MissingStepIsUndefined(obj: Value, a: string, b: string)
    requires GetValueByPath(obj, a) == None
    ensures GetValueByPath(obj, a + "." + b) == None
  {
    PathComposition(obj, a, b);
    UndefinedStaysUndefined(Split(b, '.'));
  }

  /** The remote-API predicate `=== 1 || === true`: the value is the number
      1 or `true`, with no coercion from strings. */
  predicate IsEligibleValue(v: Value)
    ensures IsEligibleValue(v) ==> Truthy(v)
    ensures v.Some? && (v.value.JStr? || v.value.JArr? || v.value.JObj?) ==> !IsEligibleValue(v)
  {
    v == Some(JNum(1.0)) || v == Some(JBool(true))
  }

  /** `value || 'TBA'`. */
  function AmountOrTba(v: Value): (a: Value)
    ensures Truthy(v) ==> a == v
    ensures !Truthy(v) ==> a == Some(JStr("TBA"))
    ensures Truthy(a)
  {
    if Truthy(v) then v else Some(JStr("TBA"))
  }

  const AddressPlaceholder: string := "{address}"

  /** `checkViaAPI`: a missing endpoint or path makes the check throw (a
      `TypeError` on `undefined`), as does a failed fetch. */
  function CheckViaApi(address: string, p: Protocol, fetch: Fetcher): (r: Result<Airdrop, string>)
    ensures r.Success? ==>
      && p.endpoint.Some? && p.responsePath.Some? && p.estimateField.Some?
      && fetch(ReplaceFirst(p.endpoint.value, AddressPlaceholder, address)).Fetched?
      && var data := Some(fetch(ReplaceFirst(p.endpoint.value, AddressPlaceholder, address)).body);
      && (r.value.eligible <==> IsEligibleValue(GetValueByPath(data, p.responsePath.value)))
      && r.value.amount == AmountOrTba(GetValueByPath(data, p.estimateField.value))
      && r.value.name == Some(p.name)
      && r.value.ticker == Some(p.ticker)
      && r.value.claimUrl == p.claimUrl
      && r.value.deadline == p.deadline
      && r.value.status.None?
    ensures r.Failure? <==>
      p.endpoint.None? || fetch(ReplaceFirst(p.endpoint.value, AddressPlaceholder, address)).FetchFailed? ||
      p.responsePath.None? || p.estimateField.None?
  {
    if p.endpoint.None? then Failure("TypeError: endpoint is undefined")
    else
      var url := ReplaceFirst(p.endpoint.value, AddressPlaceholder, address);
      match fetch(url)
      case FetchFailed => Failure("fetch failed")
      case Fetched(data) =>
        if p.responsePath.None? || p.estimateField.None? then Failure("TypeError: path is undefined")
        else
          var eligible := IsEligibleValue(GetValueByPath(Some(data), p.responsePath.value));
          var amount := AmountOrTba(GetValueByPath(Some(data), p.estimateField.value));
          Success(Airdrop(Some(p.name), Some(p.ticker), eligible, amount, p.claimUrl, p.deadline, None))
  }

  /** `checkProtocol`: dispatch on the strategy tag. The 'contract' and 'rpc'
      strategies are stubs that report not eligible, and an unknown tag yields
      a bare `{ eligible: false }`. */
  function CheckProtocol(address: string, p: Protocol, fetch: Fetcher): (r: Result<Airdrop, string>)
    ensures p.checker != "api" ==> r.Success? && !r.value.eligible
    ensures p.checker !in {"api", "contract", "rpc"} ==> r.value.name.None?
    ensures p.checker == "api" ==> r == CheckViaApi(address, p, fetch)
    ensures r.Success? ==> r.value.status.None?
  {
    match p.checker
    case "api" => CheckViaApi(address, p, fetch)
    case "contract" => Success(Airdrop(Some(p.name), None, false, Some(JNum(0.0)), None, None, None))
    case "rpc" => Success(Airdrop(Some(p.name), None, false, None, None, None, None))
    case _ => Success(Airdrop(None, None, false, None, None, None, None))
  }

  /** `checkAll`: every program in order; a throwing check is logged and
      skipped, and only eligible results are kept. */
  function CheckAll(address: string, protocols: seq<Protocol>, fetch: Fetcher): (r: seq<Airdrop>)
    ensures |r| <= |protocols|
    ensures forall k :: 0 <= k < |r| ==> r[k].eligible && r[k].status.None?
  {
    if |protocols| == 0 then []
    else
      var head := CheckProtocol(address, protocols[0], fetch);
      var rest := CheckAll(address, protocols[1..], fetch);
      if head.Success? && head.value.eligible then [head.value] + rest else rest
  }

  /** One program's contribution: its result if it did not throw and is
      eligible, nothing otherwise. */
  function Contribution(address: string, p: Protocol, fetch: Fetcher): seq<Airdrop> {
    var r := CheckProtocol(address, p, fetch);
    if r.Success? && r.value.eligible then [r.value] else []
  }

  /** Programs are checked independently and their results concatenated in
      enumeration order: a throwing program never hides a sibling's result. */
  lemma {:induction false} CheckAllAppend(address: string, a: seq<Protocol>, b: seq<Protocol>, fetch: Fetcher)
    ensures CheckAll(address, a + b, fetch) == CheckAll(address, a, fetch) + CheckAll(address, b, fetch)
    decreases |a|
  {
    if |a| > 0 {
      assert (a + b)[0] == a[0];
      assert (a + b)[1..] == a[1..] + b;
      CheckAllAppend(address, a[1..], b, fetch);
    } else {
      assert a + b == b;
    }
  }

  /** `checkAll` is the concatenation of the programs' contributions. */
  lemma {:induction false} CheckAllIsConcatenation(address: string, protocols: seq<Protocol>, fetch: Fetcher, k: nat)
    requires k < |protocols|
    ensures CheckAll(address, protocols, fetch) ==
      CheckAll(address, protocols[..k], fetch) + Contribution(address, protocols[k], fetch) + CheckAll(address, protocols[k + 1..], fetch)
  {
    var pre, mid, post := protocols[..k], [protocols[k]], protocols[k + 1..];
    assert protocols == pre + (mid + post);
    CheckAllAppend(address, pre, mid + post, fetch);
    CheckAllAppend(address, mid, post, fetch);
    SingleContribution(address, protocols[k], fetch);
  }

  lemma SingleContribution(address: string, p: Protocol, fetch: Fetcher)
    ensures CheckAll(address, [p], fetch) == Contribution(address, p, fetch)
  {
    assert [p][1..] == [];
  }

  /** Without any 'api' program nothing can be eligible. */
  lemma {:induction false} OnlyApiProgramsContribute(address: string, protocols: seq<Protocol>, fetch: Fetcher)
    requires forall i :: 0 <= i < |protocols| ==> protocols[i].checker != "api"
    ensures CheckAll(address, protocols, fetch) == []
  {
    if |protocols| > 0 {
      OnlyApiProgramsContribute(address, protocols[1..], fetch);
    }
  }

  /** A known airdrop token contract probed with `balanceOf`. */
  datatype KnownContract = KnownContract(name: string, contract: string, rpcMethod: string)

  const KnownContracts: seq<KnownContract> := [
    KnownContract("UNI Airdrop", "0x1f9840a85d5aF5bf1D1762F925BDADdC4201F984", "balanceOf"),
    KnownContract("1INCH", "0x111111111117dC0aa78b770fA6A738034120C302", "balanceOf")
  ]

  /** The 4-byte selector of `balanceOf(address)`. */
  const BalanceOfSelector: string := "0x70a08231"

  /** The 12 zero bytes that left-pad a 20-byte address to a 32-byte word. */
  const AddressPadding: string := "000000000000000000000000"

  /** `address.slice(2)`. */
  function DropPrefix(address: string): string {
    if |address| >= 2 then address[2..] else ""
  }

  /** The `eth_call` data: selector, then the address as one ABI word. */
  function BalanceOfCalldata(address: string): (data: string)
    ensures |data| == 34 + |DropPrefix(address)|
    ensures data[..10] == BalanceOfSelector
    ensures forall i :: 10 <= i < 34 ==> data[i] == '0'
    ensures data[34..] == DropPrefix(address)
  {
    BalanceOfSelector + AddressPadding + DropPrefix(address)
  }

  /** A 42-character address gives 74 characters: the selector and one
      64-digit word. */
  lemma CalldataLength(address: string)
    requires |address| == 42
    ensures |BalanceOfCalldata(address)| == 74
    ensures |BalanceOfCalldata(address)[10..]| == 64
  {
  }

  /** The address can be read back from the calldata's argument word. */
  lemma CalldataRoundTrip(address: string)
    requires |address| >= 2 && address[..2] == "0x"
    ensures "0x" + BalanceOfCalldata(address)[34..] == address
  {
    assert address == address[..2] + address[2..];
  }

  /** `1e18`: wei per whole token. */
  const WeiPerToken: real := 1000000000000000000.0

  /** What the node returned for one `eth_call`. */
  datatype CallReply = CallThrew | CallAnswered(body: Json)

  type EthCall = (string, string) -> CallReply

  /** The entry one contract contributes: only a balance above zero counts,
      reported in whole tokens (`balance / 1e18`). A thrown call, a `null` body
      or a `NaN` balance contribute nothing. */
  function ContractEntry(address: string, c: KnownContract, ethCall: EthCall): (e: Option<Airdrop>)
    ensures e.Some? ==> e.value.eligible && e.value.name == Some(c.name) && e.value.status.None?
    ensures e.Some? ==> e.value.amount.Some? && e.value.amount.value.JNum? && e.value.amount.value.n > 0.0
    ensures e.Some? <==>
      && ethCall(c.contract, BalanceOfCalldata(address)).CallAnswered?
      && ethCall(c.contract, BalanceOfCalldata(address)).body != JNull
      && var q := ParseHexValue(Prop(Some(ethCall(c.contract, BalanceOfCalldata(address)).body), "result"));
         q.Num? && q.n > 0
    ensures e.Some? ==>
      var q := ParseHexValue(Prop(Some(ethCall(c.contract, BalanceOfCalldata(address)).body), "result"));
      q.Num? && e.value.amount == Some(JNum(q.n as real / WeiPerToken))
  {
    match ethCall(c.contract, BalanceOfCalldata(address))
    case CallThrew => None
    case CallAnswered(data) =>
      if data == JNull then None
      else
        match ParseHexValue(Prop(Some(data), "result"))
        case NaN => None
        case Num(balance) =>
          if balance > 0 then Some(Airdrop(Some(c.name), None, true, Some(JNum(balance as real / WeiPerToken)), None, None, None))
          else None
  }

  /** `checkAirdropContracts` with the loop variable declared as intended
      (`const airdrop of contracts`). */
  function CheckAirdropContracts(address: string, contracts: seq<KnownContract>, ethCall: EthCall): (r: seq<Airdrop>)
    ensures |r| <= |contracts|
    ensures forall k :: 0 <= k < |r| ==> r[k].eligible && r[k].status.None?
    ensures forall k :: 0 <= k < |r| ==> r[k].amount.Some? && r[k].amount.value.JNum? && r[k].amount.value.n > 0.0
  {
    if |contracts| == 0 then []
    else
      var rest := CheckAirdropContracts(address, contracts[1..], ethCall);
      match ContractEntry(address, contracts[0], ethCall)
      case Some(e) => [e] + rest
      case None => rest
  }

  /** Every contract with a positive balance contributes its entry. */
  lemma {:induction false} ContractProbeKeeps(address: string, contracts: seq<KnownContract>, ethCall: EthCall)
    ensures forall j :: 0 <= j < |contracts| && ContractEntry(address, contracts[j], ethCall).Some? ==>
      ContractEntry(address, contracts[j], ethCall).value in CheckAirdropContracts(address, contracts, ethCall)
  {
    if |contracts| > 0 {
      ContractProbeKeeps(address, contracts[1..], ethCall);
      var rest := CheckAirdropContracts(address, contracts[1..], ethCall);
      var r := CheckAirdropContracts(address, contracts, ethCall);
      assert forall x :: x in rest ==> x in r;
      forall j | 0 <= j < |contracts| && ContractEntry(address, contracts[j], ethCall).Some?
        ensures ContractEntry(address, contracts[j], ethCall).value in r
      {
        if j > 0 {
          assert contracts[j] == contracts[1..][j - 1];
        }
      }
    }
  }

  /** `x` is the entry of one of the contracts. */
  predicate FromSomeContract(address: string, contracts: seq<KnownContract>, ethCall: EthCall, x: Airdrop) {
    exists j :: 0 <= j < |contracts| && ContractEntry(address, contracts[j], ethCall) == Some(x)
  }

  /** Every entry comes from some contract's probe. */
  lemma {:induction false} ContractProbeSources(address: string, contracts: seq<KnownContract>, ethCall: EthCall)
    ensures forall x :: x in CheckAirdropContracts(address, contracts, ethCall) ==> FromSomeContract(address, contracts, ethCall, x)
  {
    if |contracts| > 0 {
      ContractProbeSources(address, contracts[1..], ethCall);
      var head := ContractEntry(address, contracts[0], ethCall);
      var rest := CheckAirdropContracts(address, contracts[1..], ethCall);
      var r := CheckAirdropContracts(address, contracts, ethCall);
      assert r == (if head.Some? then [head.value] else []) + rest;
      forall x | x in r ensures FromSomeContract(address, contracts, ethCall, x) {
        if x !in rest {
          assert head == Some(x);
        } else {
          var j :| 0 <= j < |contracts[1..]| && ContractEntry(address, contracts[1..][j], ethCall) == Some(x);
          assert contracts[1..][j] == contracts[j + 1];
        }
      }
    }
  }

  /** Contracts are probed independently, results kept in list order. */
  lemma {:induction false} CheckAirdropContractsAppend(address: string, a: seq<KnownContract>, b: seq<KnownContract>, ethCall: EthCall)
    ensures CheckAirdropContracts(address, a + b, ethCall) ==
      CheckAirdropContracts(address, a, ethCall) + CheckAirdropContracts(address, b, ethCall)
    decreases |a|
  {
    if |a| > 0 {
      assert (a + b)[0] == a[0];
      assert (a + b)[1..] == a[1..] + b;
      CheckAirdropContractsAppend(address, a[1..], b, ethCall);
    } else {
      assert a + b == b;
    }
  }

  /** One contract contributes its entry when its balance is positive and
      nothing otherwise; with `CheckAirdropContractsAppend` this determines
      the probe of any list. */
  lemma SingleContractProbe(address: string, c: KnownContract, ethCall: EthCall)
    ensures CheckAirdropContracts(address, [c], ethCall) ==
      (if ContractEntry(address, c, ethCall).Some? then [ContractEntry(address, c, ethCall).value] else [])
  {
    assert [c][1..] == [];
  }

  /** The function as written: `for (constairdrop of contracts)` assigns an
      undeclared name, which throws a `ReferenceError` in module (strict) code
      before the first iteration's `try`, so any non-empty list rejects. */
  function CheckAirdropContractsAsWritten(address: string, contracts: seq<KnownContract>, ethCall: EthCall): (r: Result<seq<Airdrop>, string>)
    ensures |contracts| > 0 <==> r.Failure?
  {
    if |contracts| == 0 then Success([]) else Failure("ReferenceError: constairdrop is not defined")
  }

  /** With the shipped contract list, the as-written probe always rejects,
      whereas the intended one returns its entries. */
  lemma AsWrittenProbeAlwaysRejects(address: string, ethCall: EthCall)
    ensures CheckAirdropContractsAsWritten(address, KnownContracts, ethCall).Failure?
    ensures CheckAirdropContracts(address, KnownContracts, ethCall) ==
      EntryOf(address, KnownContracts[0], ethCall) + EntryOf(address, KnownContracts[1], ethCall)
  {
    assert KnownContracts == [KnownContracts[0]] + [KnownContracts[1]];
    CheckAirdropContractsAppend(address, [KnownContracts[0]], [KnownContracts[1]], ethCall);
    SingleContractProbe(address, KnownContracts[0], ethCall);
    SingleContractProbe(address, KnownContracts[1], ethCall);
  }

  /** A contract's entry as a list: one element or none. */
  function EntryOf(address: string, c: KnownContract, ethCall: EthCall): seq<Airdrop> {
    if ContractEntry(address, c, ethCall).Some? then [ContractEntry(address, c, ethCall).value] else []
  }
}

=== FILE: eligibility_route.dfy ===
/** The eligibility API route: address validation, the merge of program
    results, contract probes and demonstration records, the summary, the
    activity metric and the speculative predictions. Every network access is a
    parameter; the portfolio (DeBank) lookup is left out because its result is
    never merged. */
module EligibilityRoute {
  import opened Wrappers
  import opened Json
  import opened Text
  import opened Quantity
  import opened HexValue
  import opened Catalog
  import opened EligibilityChecker
  import opened Decimal

  predicate IsLowerHex(c: char) {
    '0' <= c <= '9' || 'a' <= c <= 'f'
  }

  /** `/^0x[a-f0-9]{40}$/`. */
  predicate MatchesAddressPattern(s: string) {
    |s| == 42 && s[0] == '0' && s[1] == 'x' && forall i :: 2 <= i < 42 ==> IsLowerHex(s[i])
  }

  /** `searchParams.get('address')?.toLowerCase()` and the pattern test: the
      accepted address is the lower-cased input. */
  function ValidateAddress(raw: Option<string>): (r: Option<string>)
    ensures r.Some? <==> raw.Some? && MatchesAddressPattern(Lower(raw.value))
    ensures r.Some? ==> r.value == Lower(raw.value)
    ensures r.Some? ==> |r.value| == 42 && forall i :: 0 <= i < 42 ==> !('A' <= r.value[i] <= 'Z')
  {
    if raw.None? then None
    else
      var address := Lower(raw.value);
      if MatchesAddressPattern(address) then Some(address) else None
  }

  /** An accepted address is accepted again unchanged. */
  lemma ValidationIdempotent(raw: Option<string>)
    requires ValidateAddress(raw).Some?
    ensures ValidateAddress(ValidateAddress(raw)) == ValidateAddress(raw)
  {
    var a := ValidateAddress(raw).value;
    assert Lower(a) == a by {
      forall i | 0 <= i < |a| ensures Lower(a)[i] == a[i] {
        assert !('A' <= a[i] <= 'Z');
      }
    }
  }

  /** `MOCK_ELIGIBILITY_DB[address] || []`. */
  function MockEntries(db: map<string, seq<MockEntry>>, address: string): seq<MockEntry> {
    if address in db then db[address] else []
  }

  /** The demonstration key holds an upper-case letter, so no validated
      (lower-cased) address can ever find it. */
  lemma MockDbNeverMatches(raw: Option<string>)
    requires ValidateAddress(raw).Some?
    ensures MockEntries(MockEligibilityDb, ValidateAddress(raw).value) == []
  {
    var a := ValidateAddress(raw).value;
    assert MockEligibilityDb.Keys == {DemoAddress};
    assert DemoAddress[11] == 'E';
    assert a[11] != 'E';
  }

  /** With the database keyed in lower case, every accepted spelling of the
      demonstration address, in any mix of cases, finds both of its records. */
  lemma DemoAddressFound(raw: Option<string>)
    requires ValidateAddress(raw).Some? && Lower(raw.value) == Lower(DemoAddress)
    ensures MockEntries(NormalisedMockDb, ValidateAddress(raw).value) == DemoEntries
  {
  }

  /** A demonstration record in the response shape: always eligible, named
      after its program, amount and status copied. */
  function FromMock(m: MockEntry): (a: Airdrop)
    ensures a.eligible && a.name == Some(m.protocol)
    ensures a.amount == Some(JNum(m.amount)) && a.status == Some(m.status)
  {
    Airdrop(Some(m.protocol), None, true, Some(JNum(m.amount)), None, None, Some(m.status))
  }

  function FromMocks(ms: seq<MockEntry>): (r: seq<Airdrop>)
    ensures |r| == |ms|
    ensures forall k :: 0 <= k < |ms| ==> r[k] == FromMock(ms[k])
  {
    if |ms| == 0 then [] else [FromMock(ms[0])] + FromMocks(ms[1..])
  }

  /** Program results first, then contract probes, then demonstration records. */
  function Merge(programs: seq<Airdrop>, contracts: seq<Airdrop>, mocks: seq<MockEntry>): (all: seq<Airdrop>)
    ensures |all| == |programs| + |contracts| + |mocks|
    ensures all[..|programs|] == programs
    ensures all[|programs|..|programs| + |contracts|] == contracts
    ensures forall k :: 0 <= k < |mocks| ==> all[|programs| + |contracts| + k] == FromMock(mocks[k])
  {
    programs + contracts + FromMocks(mocks)
  }

  /** `airdrops.filter(a => a.status === status).length`. */
  function CountStatus(airdrops: seq<Airdrop>, status: string): (n: nat)
    ensures n <= |airdrops|
    ensures n == 0 <==> forall k :: 0 <= k < |airdrops| ==> airdrops[k].status != Some(status)
    ensures n == |airdrops| <==> forall k :: 0 <= k < |airdrops| ==> airdrops[k].status == Some(status)
  {
    if |airdrops| == 0 then 0
    else (if airdrops[0].status == Some(status) then 1 else 0) + CountStatus(airdrops[1..], status)
  }

  /** One record counts once exactly when it carries the status. */
  lemma CountStatusSingle(a: Airdrop, status: string)
    ensures CountStatus([a], status) == (if a.status == Some(status) then 1 else 0)
  {
    assert [a][1..] == [];
  }

  /** Two different statuses together count at most every record once. */
  lemma {:induction false} StatusCountsDisjoint(airdrops: seq<Airdrop>, s: string, t: string)
    requires s != t
    ensures CountStatus(airdrops, s) + CountStatus(airdrops, t) <= |airdrops|
  {
    if |airdrops| > 0 {
      StatusCountsDisjoint(airdrops[1..], s, t);
    }
  }

  lemma {:induction false} CountStatusAppend(a: seq<Airdrop>, b: seq<Airdrop>, status: string)
    ensures CountStatus(a + b, status) == CountStatus(a, status) + CountStatus(b, status)
  {
    if |a| == 0 {
      assert a + b == b;
    } else {
      assert (a + b)[0] == a[0];
      assert (a + b)[1..] == a[1..] + b;
      CountStatusAppend(a[1..], b, status);
    }
  }

  /** Records without a status are never counted. */
  lemma {:induction false} UnstatusedNotCounted(a: seq<Airdrop>, status: string)
    requires forall k :: 0 <= k < |a| ==> a[k].status.None?
    ensures CountStatus(a, status) == 0
  {
    if |a| > 0 {
      UnstatusedNotCounted(a[1..], status);
    }
  }

  /** `parseFloat(amount) || 0`: a number is itself, a string is read as a
      decimal, an array through its first element, and anything unreadable
      (including 'TBA') counts as 0. */
  function NumericAmount(v: Value): (x: real)
    ensures v.Some? && v.value.JStr? ==> x == ParseFloat(v.value.s).GetOr(0.0)
    ensures v.Some? && v.value.JNum? ==> x == v.value.n
    ensures v.Some? && v.value.JArr? && |v.value.items| > 0 ==> x == ParseFloatValue(v.value.items[0]).GetOr(0.0)
    ensures v.None? || v.value.JNull? || v.value.JBool? || v.value.JObj? || v.value == JArr([]) ==> x == 0.0
  {
    if v.None? then 0.0 else ParseFloatValue(v.value).GetOr(0.0)
  }

  /** A one-element array adds what its element adds: `[5]` and `['5']` add 5. */
  lemma SingletonArrayAmount(e: Json)
    requires e.JNum? || e.JStr?
    ensures NumericAmount(Some(JArr([e]))) == NumericAmount(Some(e))
  {
  }

  /** 'TBA' adds nothing to the total. */
  lemma TbaCountsZero()
    ensures NumericAmount(Some(JStr("TBA"))) == 0.0
  {
    NotANumber();
  }

  /** `airdrops.reduce((sum, a) => sum + (parseFloat(a.amount) || 0), 0)`. */
  function TotalValue(airdrops: seq<Airdrop>): (t: real)
    ensures |airdrops| == 1 ==> t == NumericAmount(airdrops[0].amount)
    ensures (forall i :: 0 <= i < |airdrops| ==> NumericAmount(airdrops[i].amount) >= 0.0) ==> t >= 0.0
  {
    if |airdrops| == 0 then 0.0 else NumericAmount(airdrops[0].amount) + TotalValue(airdrops[1..])
  }

  lemma {:induction false} TotalValueAppend(a: seq<Airdrop>, b: seq<Airdrop>)
    ensures TotalValue(a + b) == TotalValue(a) + TotalValue(b)
  {
    if |a| == 0 {
      assert a + b == b;
    } else {
      assert (a + b)[0] == a[0];
      assert (a + b)[1..] == a[1..] + b;
      TotalValueAppend(a[1..], b);
    }
  }

  /** With every amount non-negative the total is too, and it is at least any
      single record's amount. */
  lemma {:induction false} TotalValueBounds(airdrops: seq<Airdrop>, k: nat)
    requires forall i :: 0 <= i < |airdrops| ==> NumericAmount(airdrops[i].amount) >= 0.0
    requires k < |airdrops|
    ensures TotalValue(airdrops) >= NumericAmount(airdrops[k].amount) >= 0.0
  {
    if k > 0 {
      TotalValueBounds(airdrops[1..], k - 1);
    } else if |airdrops| > 1 {
      TotalValueBounds(airdrops[1..], 0);
    }
  }

  datatype Summary = Summary(totalClaimable: nat, totalPending: nat, totalValue: real)

  function Summarize(airdrops: seq<Airdrop>): (s: Summary)
    ensures s.totalClaimable == CountStatus(airdrops, "claimable")
    ensures s.totalPending == CountStatus(airdrops, "pending")
    ensures s.totalValue == TotalValue(airdrops)
    ensures s.totalClaimable + s.totalPending <= |airdrops|
  {
    StatusCountsDisjoint(airdrops, "claimable", "pending");
    Summary(CountStatus(airdrops, "claimable"), CountStatus(airdrops, "pending"), TotalValue(airdrops))
  }

  datatype Activity = High | Low | Unknown

  datatype OnChainMetrics = OnChainMetrics(nonce: Quantity, activity: Activity)

  /** `getOnChainMetrics`: the mainnet nonce and its activity class. A thrown
      fetch or a `null` body gives nonce 0 and 'unknown'; a missing or
      undecodable `result` gives `NaN`, which is classed 'low'. */
  function GetOnChainMetrics(reply: CallReply): (m: OnChainMetrics)
    ensures m.activity == High <==> m.nonce.Num? && m.nonce.n > 10 && m.activity != Unknown
    ensures m.activity == Unknown <==> (reply.CallThrew? || reply.body == JNull)
    ensures m.activity == Unknown ==> m.nonce == Num(0)
    ensures m.activity != Unknown ==> m.nonce == ParseHexValue(Prop(Some(reply.body), "result"))
  {
    match reply
    case CallThrew => OnChainMetrics(Num(0), Unknown)
    case CallAnswered(data) =>
      if data == JNull then OnChainMetrics(Num(0), Unknown)
      else
        var nonce := ParseHexValue(Prop(Some(data), "result"));
        OnChainMetrics(nonce, if nonce.Num? && nonce.n > 10 then High else Low)
  }

  datatype Prediction = Prediction(name: string, confidence: nat, estAmount: string, reason: string)

  const LayerZero: Prediction := Prediction("LayerZero (Speculated)", 75, "$1,000 - $3,000", "High transaction count detected")
  const ZkSync: Prediction := Prediction("zkSync (Rumored)", 60, "$500 - $2,000", "Active DeFi user profile")

  /** `nonce > limit`, false for `NaN`. */
  predicate NonceAbove(nonce: Quantity, limit: nat) {
    nonce.Num? && nonce.n > limit
  }

  /** `predictAirdrops`: the fixed rule table. */
  function PredictAirdrops(m: OnChainMetrics): (r: seq<Prediction>)
    ensures LayerZero in r <==> NonceAbove(m.nonce, 50)
    ensures ZkSync in r <==> NonceAbove(m.nonce, 100)
    ensures |r| <= 2 && forall k :: 0 <= k < |r| ==> r[k] in {LayerZero, ZkSync}
    ensures NonceAbove(m.nonce, 100) ==> r == [LayerZero, ZkSync]
    ensures NonceAbove(m.nonce, 50) && !NonceAbove(m.nonce, 100) ==> r == [LayerZero]
    ensures !NonceAbove(m.nonce, 50) ==> r == []
  {
    (if NonceAbove(m.nonce, 50) then [LayerZero] else []) + (if NonceAbove(m.nonce, 100) then [ZkSync] else [])
  }

  /** A nonce of 60 yields exactly the threshold-50 prediction; an unknown or
      `NaN` nonce yields none. */
  lemma PredictionExamples()
    ensures PredictAirdrops(OnChainMetrics(Num(60), High)) == [LayerZero]
    ensures PredictAirdrops(OnChainMetrics(Num(0), Unknown)) == []
    ensures PredictAirdrops(OnChainMetrics(NaN, Low)) == []
  {
  }

  datatype Response =
    | BadRequest(error: string)
    | Ok(address: string, summary: Summary, airdrops: seq<Airdrop>, predictions: seq<Prediction>, metrics: OnChainMetrics)
    | Unhandled(message: string)

  /** The `GET` handler. `fetch` serves the program APIs, `ethCall` the
      contract probes, `nonceReply` the mainnet nonce lookup of an address. */
  function Get(
    raw: Option<string>,
    protocols: seq<Protocol>,
    fetch: Fetcher,
    contracts: seq<KnownContract>,
    ethCall: EthCall,
    db: map<string, seq<MockEntry>>,
    nonceReply: string -> CallReply): (r: Response)
    ensures r.BadRequest? <==> ValidateAddress(raw).None?
    ensures r.BadRequest? ==> r.error == "Invalid address"
    ensures !r.Unhandled?
    ensures r.Ok? ==>
      var address := ValidateAddress(raw).value;
      && r.address == address
      && r.airdrops == Merge(CheckAll(address, protocols, fetch),
                             CheckAirdropContracts(address, contracts, ethCall),
                             MockEntries(db, address))
      && r.summary.totalClaimable == CountStatus(r.airdrops, "claimable")
      && r.summary.totalPending == CountStatus(r.airdrops, "pending")
      && r.summary.totalClaimable + r.summary.totalPending <= |r.airdrops|
      && r.summary.totalValue == TotalValue(r.airdrops)
      && r.metrics == GetOnChainMetrics(nonceReply(address))
      && r.predictions == PredictAirdrops(r.metrics)
  {
    match ValidateAddress(raw)
    case None => BadRequest("Invalid address")
    case Some(address) =>
      var all := Merge(CheckAll(address, protocols, fetch),
                       CheckAirdropContracts(address, contracts, ethCall),
                       MockEntries(db, address));
      var metrics := GetOnChainMetrics(nonceReply(address));
      Ok(address, Summarize(all), all, PredictAirdrops(metrics), metrics)
  }

  /** The handler as written: the probes' rejection is not caught, so it
      escapes the handler and the framework answers with a server error. With
      no contract to probe it agrees with the corrected handler. */
  function GetAsWritten(
    raw: Option<string>,
    protocols: seq<Protocol>,
    fetch: Fetcher,
    contracts: seq<KnownContract>,
    ethCall: EthCall,
    db: map<string, seq<MockEntry>>,
    nonceReply: string -> CallReply): (r: Response)
    ensures r.BadRequest? <==> ValidateAddress(raw).None?
    ensures r.Unhandled? <==> ValidateAddress(raw).Some? && |contracts| > 0
    ensures !r.Unhandled? ==> r == Get(raw, protocols, fetch, contracts, ethCall, db, nonceReply)
  {
    match ValidateAddress(raw)
    case None => BadRequest("Invalid address")
    case Some(address) =>
      match CheckAirdropContractsAsWritten(address, contracts, ethCall)
      case Failure(e) => Unhandled(e)
      case Success(probes) =>
        var all := Merge(CheckAll(address, protocols, fetch), probes, MockEntries(db, address));
        var metrics := GetOnChainMetrics(nonceReply(address));
        Ok(address, Summarize(all), all, PredictAirdrops(metrics), metrics)
  }

  /** With the shipped contract list every valid address gets a server error
      from the handler as written, and a full answer from the corrected one. */
  lemma AsWrittenRouteAlwaysFails(raw: Option<string>, fetch: Fetcher, ethCall: EthCall, db: map<string, seq<MockEntry>>, nonceReply: string -> CallReply)
    requires ValidateAddress(raw).Some?
    ensures GetAsWritten(raw, ActiveProtocols, fetch, KnownContracts, ethCall, db, nonceReply).Unhandled?
    ensures Get(raw, ActiveProtocols, fetch, KnownContracts, ethCall, db, nonceReply).Ok?
  {
    assert |KnownContracts| > 0;
  }

  /** A rejected address never reaches a checker or the network: the answer
      is the same whatever the network does. */
  lemma RejectionIgnoresNetwork(
    raw: Option<string>, protocols: seq<Protocol>, contracts: seq<KnownContract>, db: map<string, seq<MockEntry>>,
    fetch: Fetcher, ethCall: EthCall, nonceReply: string -> CallReply,
    fetch': Fetcher, ethCall': EthCall, nonceReply': string -> CallReply)
    requires ValidateAddress(raw).None?
    ensures Get(raw, protocols, fetch, contracts, ethCall, db, nonceReply) ==
            Get(raw, protocols, fetch', contracts, ethCall', db, nonceReply')
  {
  }

  /** Only demonstration records carry a status, so with the shipped database
      (which never matches) nothing is ever counted as claimable or pending. */
  lemma ShippedStatusCountsAreZero(raw: Option<string>, fetch: Fetcher, ethCall: EthCall, nonceReply: string -> CallReply)
    requires ValidateAddress(raw).Some?
    ensures Get(raw, ActiveProtocols, fetch, KnownContracts, ethCall, MockEligibilityDb, nonceReply).summary.totalClaimable == 0
    ensures Get(raw, ActiveProtocols, fetch, KnownContracts, ethCall, MockEligibilityDb, nonceReply).summary.totalPending == 0
  {
    var address := ValidateAddress(raw).value;
    MockDbNeverMatches(raw);
    var programs := CheckAll(address, ActiveProtocols, fetch);
    var probes := CheckAirdropContracts(address, KnownContracts, ethCall);
    assert FromMocks([]) == [];
    var all := programs + probes;
    assert Merge(programs, probes, []) == all;
    assert forall k :: 0 <= k < |all| ==> all[k].status.None? by {
      forall k | 0 <= k < |all| ensures all[k].status.None? {
        if k < |programs| { assert all[k] == programs[k]; } else { assert all[k] == probes[k - |programs|]; }
      }
    }
    UnstatusedNotCounted(all, "claimable");
    UnstatusedNotCounted(all, "pending");
  }

  /** With the lower-case database the demonstration address reports one
      claimable and one pending airdrop, whatever the network answers. */
  lemma DemoAddressCounted(raw: Option<string>, fetch: Fetcher, ethCall: EthCall, nonceReply: string -> CallReply)
    requires ValidateAddress(raw).Some? && Lower(raw.value) == Lower(DemoAddress)
    ensures Get(raw, ActiveProtocols, fetch, KnownContracts, ethCall, NormalisedMockDb, nonceReply).summary.totalClaimable == 1
    ensures Get(raw, ActiveProtocols, fetch, KnownContracts, ethCall, NormalisedMockDb, nonceReply).summary.totalPending == 1
  {
    var address := ValidateAddress(raw).value;
    DemoAddressFound(raw);
    var programs := CheckAll(address, ActiveProtocols, fetch);
    var probes := CheckAirdropContracts(address, KnownContracts, ethCall);
    var checked := programs + probes;
    var demo := FromMocks(DemoEntries);
    assert Merge(programs, probes, DemoEntries) == checked + demo;
    assert forall k :: 0 <= k < |checked| ==> checked[k].status.None? by {
      forall k | 0 <= k < |checked| ensures checked[k].status.None? {
        if k < |programs| { assert checked[k] == programs[k]; } else { assert checked[k] == probes[k - |programs|]; }
      }
    }
    UnstatusedNotCounted(checked, "claimable");
    UnstatusedNotCounted(checked, "pending");
    CountStatusAppend(checked, demo, "claimable");
    CountStatusAppend(checked, demo, "pending");
    DemoEntriesCounted();
  }

  /** The two demonstration entries: one claimable, one pending. */
  lemma DemoEntriesCounted()
    ensures CountStatus(FromMocks(DemoEntries), "claimable") == 1
    ensures CountStatus(FromMocks(DemoEntries), "pending") == 1
  {
    var demo := FromMocks(DemoEntries);
    assert demo == [FromMock(DemoEntries[0]), FromMock(DemoEntries[1])];
    assert demo[1..] == [FromMock(DemoEntries[1])];
    assert demo[1..][1..] == [];
  }
}

=== FILE: json.dfy ===
/** JSON values as the JavaScript code sees them after `res.json()`, with
    `undefined` represented by `None` of a `Value`. */
module Json {
  import opened Wrappers

  datatype Json =
    | JNull
    | JBool(b: bool)
    | JNum(n: real)
    | JStr(s: string)
    | JArr(items: seq<Json>)
    | JObj(fields: map<string, Json>)

  /** A JavaScript value that may be `undefined` (`None`). */
  type Value = Option<Json>

  /** JavaScript truthiness: `undefined`, `null`, `false`, `0` and `""` are
      falsy; every array and object is truthy. (`NaN`, the remaining falsy
      number, is not a JSON value.) */
  predicate Truthy(v: Value) {
    match v
    case None => false
    case Some(j) =>
      match j
      case JNull => false
      case JBool(b) => b
      case JNum(n) => n != 0.0
      case JStr(s) => |s| > 0
      case JArr(_) => true
      case JObj(_) => true
  }

  /** The falsy values are exactly JavaScript's list. */
  lemma FalsyValues(v: Value)
    ensures !Truthy(v) <==> v.None? || v.value in {JNull, JBool(false), JNum(0.0), JStr("")}
  {
  }

  predicate IsDigit(c: char) {
    '0' <= c <= '9'
  }

  /** Value of a string of decimal digits. */
  function DecimalValue(s: string): nat
    requires forall i :: 0 <= i < |s| ==> IsDigit(s[i])
  {
    if |s| == 0 then 0
    else
      assert IsDigit(s[|s| - 1]);
      10 * DecimalValue(s[..|s| - 1]) + (s[|s| - 1] as int - '0' as int)
  }

  /** A property key that names an array element: a canonical decimal index
      (no sign, no leading zero except for "0" itself). */
  function ArrayIndex(key: string): Option<nat> {
    if |key| > 0 && (forall i :: 0 <= i < |key| ==> IsDigit(key[i])) && (|key| == 1 || key[0] != '0')
    then Some(DecimalValue(key))
    else None
  }

  /** Optional-chaining property access `v?.[key]`: `undefined` and `null`
      short-circuit to `undefined`, objects yield their own field, arrays their
      element at a canonical index, and any other key yields `undefined`. */
  function Prop(v: Value, key: string): (r: Value)
    ensures v.None? || v == Some(JNull) ==> r.None?
    ensures (v.Some? && v.value.JObj?) ==> (r.Some? <==> key in v.value.fields)
    ensures r.Some? ==> v.Some? && (v.value.JObj? || v.value.JArr?)
  {
    match v
    case None => None
    case Some(j) =>
      match j
      case JObj(m) => if key in m then Some(m[key]) else None
      case JArr(xs) =>
        (match ArrayIndex(key)
         case Some(k) => if k < |xs| then Some(xs[k]) else None
         case None => None)
      case _ => None
  }
}

=== FILE: metrics.dfy ===
/** The heuristic account metrics derived from a transaction count. The same
    formulas appear in the client-side analyzer and in the analyze API route;
    they are defined once here. Gas is counted in thousandths of the native
    unit so that the per-transaction constants 0.005 and 0.001 are integers. */
module Metrics {

  /** The chain whose per-transaction gas constant is the larger one. */
  const PrimaryChain: int := 1

  /** `Math.min(txCount * 2, 365)`. */
  function ActiveDays(tx: nat): (days: nat)
    ensures days <= 365
    ensures days <= 2 * tx
    ensures days == 365 || days == 2 * tx
  {
    if 2 * tx < 365 then 2 * tx else 365
  }

  /** `Math.floor(txCount * 0.3)`, as exact integer arithmetic. */
  function ContractInteractions(tx: nat): (k: nat)
    ensures k <= tx
    ensures 10 * k <= 3 * tx < 10 * k + 10
  {
    (3 * tx) / 10
  }

  /** Gas per transaction in thousandths: 0.005 on the primary chain, 0.001
      on every other chain. */
  function GasPerTxMilli(chainId: int): (g: nat)
    ensures g >= 1
    ensures g as real / 1000.0 == (if chainId == 1 then 0.005 else 0.001)
  {
    if chainId == PrimaryChain then 5 else 1
  }

  /** `txCount * (chainId === 1 ? 0.005 : 0.001)`, in thousandths. */
  function GasSpentMilli(chainId: int, tx: nat): (g: nat)
    ensures g >= tx
    ensures tx == 0 ==> g == 0
    ensures chainId == PrimaryChain ==> g == 5 * tx
    ensures chainId != PrimaryChain ==> g == tx
    ensures g as real / 1000.0 == tx as real * (if chainId == 1 then 0.005 else 0.001)
  {
    tx * GasPerTxMilli(chainId)
  }

  /** `Math.min` on two numbers. */
  function MinReal(a: real, b: real): (m: real)
    ensures m <= a && m <= b && (m == a || m == b)
  {
    if a <= b then a else b
  }

  /** `Math.min(Math.floor(txCount / 100 * 50) + Math.min(txCount * 0.5, 50), 100)`.
      The floor applies only to the first term, so an odd count below 100
      scores a half point. */
  function AirdropScore(tx: nat): (score: real)
    ensures 0.0 <= score <= 100.0
  {
    MinReal(((tx / 2) as real) + MinReal(tx as real * 0.5, 50.0), 100.0)
  }

  /** All derived fields of one account on one chain. */
  datatype Derived = Derived(activeDays: nat, contractInteractions: nat, gasSpentMilli: nat, score: real)

  function Derive(chainId: int, tx: nat): (d: Derived)
    ensures d.activeDays <= 365 && d.contractInteractions <= tx
    ensures 0.0 <= d.score <= 100.0
  {
    Derived(ActiveDays(tx), ContractInteractions(tx), GasSpentMilli(chainId, tx), AirdropScore(tx))
  }

  /** More transactions never lower the active-days estimate. */
  lemma ActiveDaysMonotone(tx: nat, tx': nat)
    requires tx <= tx'
    ensures ActiveDays(tx) <= ActiveDays(tx')
  {
  }

  /** More transactions never lower the contract-interaction estimate. */
  lemma ContractInteractionsMonotone(tx: nat, tx': nat)
    requires tx <= tx'
    ensures ContractInteractions(tx) <= ContractInteractions(tx')
  {
  }

  /** More transactions never lower the score. */
  lemma ScoreMonotone(tx: nat, tx': nat)
    requires tx <= tx'
    ensures AirdropScore(tx) <= AirdropScore(tx')
  {
    assert tx / 2 <= tx' / 2;
  }

  /** The score's anchor points: nothing for no activity, linear growth up
      to 100 transactions, saturation from there on; an odd count below 100
      is not a whole number. */
  lemma ScoreSamples()
    ensures AirdropScore(0) == 0.0
    ensures AirdropScore(40) == 40.0
    ensures AirdropScore(100) == 100.0
    ensures AirdropScore(1) == 0.5
  {
  }

  /** Below 100 transactions the score is exactly `tx` when `tx` is even and
      `tx - 0.5` when it is odd; from 100 on it is 100. */
  lemma ScoreClosedForm(tx: nat)
    ensures tx >= 100 ==> AirdropScore(tx) == 100.0
    ensures tx < 100 && tx % 2 == 0 ==> AirdropScore(tx) == tx as real
    ensures tx < 100 && tx % 2 == 1 ==> AirdropScore(tx) == tx as real - 0.5
  {
    assert 2 * (tx / 2) + tx % 2 == tx;
  }

  /** For the same number of transactions the primary chain's gas estimate is
      at least that of any other chain, five times as large exactly. */
  lemma PrimaryChainGasDominates(other: int, tx: nat)
    ensures GasSpentMilli(other, tx) <= GasSpentMilli(PrimaryChain, tx)
    ensures other != PrimaryChain ==> GasSpentMilli(PrimaryChain, tx) == 5 * GasSpentMilli(other, tx)
  {
  }
}

=== FILE: mock_data.dfy ===
/** The demonstration data layer: the chain list, the on-chain transaction
    count lookup with its simulated balance, and the scoring of the mock
    airdrop database. The clock, `Math.random` and date parsing are
    parameters. */
module MockData {
  import opened Wrappers
  import opened Json
  import opened Quantity
  import opened HexValue
  import opened EligibilityChecker
  import opened Metrics
  import Text

  datatype ChainInfo = ChainInfo(id: int, name: string, symbol: string, rpc: string)

  const Chains: seq<ChainInfo> := [
    ChainInfo(1, "Ethereum", "ETH", "https://eth.llamarpc.com"),
    ChainInfo(137, "Polygon", "MATIC", "https://polygon.llamarpc.com"),
    ChainInfo(42161, "Arbitrum", "ETH", "https://arbitrum.llamarpc.com"),
    ChainInfo(10, "Optimism", "ETH", "https://optimism.llamarpc.com"),
    ChainInfo(8453, "Base", "ETH", "https://base.llamarpc.com"),
    ChainInfo(56, "BSC", "BNB", "https://bsc-dataseed.binance.org"),
    ChainInfo(43114, "Avalanche", "AVAX", "https://api.avax.network/ext/bc/C/rpc"),
    ChainInfo(59144, "Linea", "ETH", "https://rpc.linea.build"),
    ChainInfo(534352, "Scroll", "ETH", "https://rpc.scroll.io"),
    ChainInfo(1088, "Metis", "METIS", "https://andromeda.metis.io/?owner=1088")
  ]

  /** `chains.find(c => c.id === chainId)`: the first entry with that id. */
  function FindChain(chains: seq<ChainInfo>, chainId: int): (r: Option<ChainInfo>)
    ensures r.None? <==> forall k :: 0 <= k < |chains| ==> chains[k].id != chainId
    ensures r.Some? ==> exists k :: 0 <= k < |chains| && chains[k] == r.value && chains[k].id == chainId
                                    && forall m :: 0 <= m < k ==> chains[m].id != chainId
  {
    if |chains| == 0 then None
    else if chains[0].id == chainId then
      assert chains[0] == chains[0];
      Some(chains[0])
    else
      var r := FindChain(chains[1..], chainId);
      if r.Some? then
        var k :| 0 <= k < |chains[1..]| && chains[1..][k] == r.value && chains[1..][k].id == chainId
                 && forall m :: 0 <= m < k ==> chains[1..][m].id != chainId;
        assert chains[k + 1] == r.value;
        r
      else r
  }

  /** `toFixed(4)` on a non-negative number, rounding half up. */
  function Round4(x: real): (y: real)
    requires x >= 0.0
    ensures y >= 0.0 && x - 0.00005 <= y <= x + 0.00005
  {
    ((x * 10000.0 + 0.5).Floor as real) / 10000.0
  }

  /** `txCount > 0 ? (Math.random() * 2).toFixed(4) : '0'`, read as a
      number. */
  function SimulatedBalance(txCount: Quantity, random: real): (b: real)
    requires 0.0 <= random < 1.0
    ensures txCount.Num? && txCount.n > 0 ==> 0.0 <= b <= 2.0
    ensures !(txCount.Num? && txCount.n > 0) ==> b == 0.0
  {
    if txCount.Num? && txCount.n > 0 then Round4(random * 2.0) else 0.0
  }

  datatype OnChainData = OnChainData(txCount: Quantity, balance: real, chain: string)

  /** `parseInt(data.result || '0', 16)`: a falsy result counts as zero. */
  function TxCountOf(result: Value): (q: Quantity)
    ensures !Truthy(result) ==> q == Num(0)
    ensures Truthy(result) ==> q == ParseHexValue(result)
  {
    if Truthy(result) then ParseHexValue(result) else ParseHex("0")
  }

  /** `checkOnChainData`: `None` for an unlisted chain, a thrown fetch or a
      `null` body; otherwise the transaction count and a balance simulated
      from the draw `random` (in `[0, 1)`) when the count is positive. */
  function CheckOnChainData(chains: seq<ChainInfo>, chainId: int, reply: string -> CallReply, random: real): (r: Option<OnChainData>)
    requires 0.0 <= random < 1.0
    ensures FindChain(chains, chainId).None? ==> r.None?
    ensures r.Some? <==> FindChain(chains, chainId).Some?
                         && reply(FindChain(chains, chainId).value.rpc).CallAnswered?
                         && reply(FindChain(chains, chainId).value.rpc).body != JNull
    ensures r.Some? ==>
      var body := reply(FindChain(chains, chainId).value.rpc).body;
      && r.value.chain == FindChain(chains, chainId).value.name
      && r.value.txCount == TxCountOf(Prop(Some(body), "result"))
      && (r.value.txCount.Num? && r.value.txCount.n > 0 ==> 0.0 <= r.value.balance <= 2.0)
      && (!(r.value.txCount.Num? && r.value.txCount.n > 0) ==> r.value.balance == 0.0)
  {
    match FindChain(chains, chainId)
    case None => None
    case Some(chain) =>
      match reply(chain.rpc)
      case CallThrew => None
      case CallAnswered(data) =>
        if data == JNull then None
        else
          var txCount := TxCountOf(Prop(Some(data), "result"));
          Some(OnChainData(txCount, SimulatedBalance(txCount, random), chain.name))
  }

  datatype Drop = Drop(id: string, name: string, minTx: nat, minValue: real, maxReward: nat, deadline: string, status: string)

  const AirdropDatabase: seq<Drop> := [
    Drop("pengu", "Pengu", 5, 0.1, 2098, "2026-02-15", "claimable"),
    Drop("venice", "Venice AI", 10, 0.5, 755, "2026-02-20", "claimable"),
    Drop("morse", "Morse", 3, 0.05, 449, "2026-01-30", "expiring"),
    Drop("looped", "loopedHYPE", 8, 0.2, 324, "2026-03-01", "claimable"),
    Drop("monad", "Monad", 20, 1.0, 3000, "2026-04-01", "pending"),
    Drop("eclipse", "Eclipse", 15, 0.5, 1500, "2026-02-28", "claimable")
  ]

  /** Enough transactions and enough balance. */
  predicate Eligible(drop: Drop, txCount: nat, balance: real) {
    txCount >= drop.minTx && balance >= drop.minValue
  }

  /** More activity never loses eligibility. */
  lemma EligibleMonotone(drop: Drop, t: nat, b: real, t': nat, b': real)
    requires Eligible(drop, t, b) && t <= t' && b <= b'
    ensures Eligible(drop, t', b')
  {
  }

  /** `Math.min(txCount / 50, 1) + balance / 10`. */
  function ActivityMultiplier(txCount: nat, balance: real): (m: real)
    ensures balance >= 0.0 ==> m >= 0.0
    ensures txCount >= 50 && balance >= 0.0 ==> m >= 1.0
  {
    MinReal(txCount as real / 50.0, 1.0) + balance / 10.0
  }

  /** `Math.min(multiplier, 1) * (0.5 + random * 0.5)`: the share of the
      maximum reward, in [0, 1), and at least one half at full activity. */
  function Factor(multiplier: real, random: real): (f: real)
    requires multiplier >= 0.0 && 0.0 <= random < 1.0
    ensures 0.0 <= f < 1.0
    ensures multiplier >= 1.0 ==> f >= 0.5
  {
    FactorBounds(multiplier, random);
    MinReal(multiplier, 1.0) * (0.5 + random * 0.5)
  }

  /** `Math.floor(maxReward * Math.min(multiplier, 1) * (0.5 + random * 0.5))`:
      the last ensures says the amount is the floor of `Scale`, which
      `RewardAmountIsFloor` turns into the floor of the product. */
  function RewardAmount(maxReward: nat, multiplier: real, random: real): (amount: int)
    requires multiplier >= 0.0 && 0.0 <= random < 1.0
    ensures 0 <= amount <= maxReward
    ensures maxReward > 0 ==> amount < maxReward
    ensures multiplier >= 1.0 ==> amount >= maxReward / 2
    ensures var share := Scale(maxReward, Factor(multiplier, random));
      amount as real <= share < amount as real + 1.0
  {
    var share := Scale(maxReward, Factor(multiplier, random));
    FloorMonotone(0.0, share);
    share.Floor
  }

  /** The reward is the floor of the source's product, evaluated left to
      right: the greatest integer not above it. */
  lemma RewardAmountIsFloor(maxReward: nat, multiplier: real, random: real)
    requires multiplier >= 0.0 && 0.0 <= random < 1.0
    ensures var x := maxReward as real * MinReal(multiplier, 1.0) * (0.5 + random * 0.5);
      RewardAmount(maxReward, multiplier, random) as real <= x < RewardAmount(maxReward, multiplier, random) as real + 1.0
  {
    ShareIsProduct(maxReward, multiplier, random);
  }

  lemma ShareIsProduct(maxReward: nat, multiplier: real, random: real)
    requires multiplier >= 0.0 && 0.0 <= random < 1.0
    ensures Scale(maxReward, Factor(multiplier, random))
         == maxReward as real * MinReal(multiplier, 1.0) * (0.5 + random * 0.5)
  {
    var capped, luck := MinReal(multiplier, 1.0), 0.5 + random * 0.5;
    var f := Factor(multiplier, random);
    assert f == capped * luck;
    ScaleIsProduct(maxReward, f);
    ProductAssociates(maxReward as real, capped, luck);
  }

  lemma ProductAssociates(a: real, b: real, c: real)
    ensures a * (b * c) == a * b * c
  {
  }

  /** The clamped multiplier times the random share lies in [0, 1), and
      in [0.5, 1) at full activity. */
  lemma FactorBounds(multiplier: real, random: real)
    requires multiplier >= 0.0 && 0.0 <= random < 1.0
    ensures 0.0 <= MinReal(multiplier, 1.0) * (0.5 + random * 0.5) < 1.0
    ensures multiplier >= 1.0 ==> MinReal(multiplier, 1.0) * (0.5 + random * 0.5) >= 0.5
  {
    var capped := MinReal(multiplier, 1.0);
    var luck := 0.5 + random * 0.5;
    assert 0.0 <= capped <= 1.0 && 0.5 <= luck < 1.0;
    ProductNonNegative(capped, luck);
    ProductBelowOne(capped, luck);
    if multiplier >= 1.0 {
      assert capped == 1.0;
      assert capped * luck == luck;
    }
  }

  /** `whole * share` for a share in [0, 1), written as `whole` repeated
      additions so that its bounds are linear facts; `ScaleIsProduct` shows it
      is the product. */
  function Scale(whole: nat, share: real): (p: real)
    requires 0.0 <= share < 1.0
    ensures 0.0 <= p <= whole as real
    ensures whole > 0 ==> p < whole as real
    ensures share >= 0.5 ==> p >= whole as real / 2.0
    decreases whole
  {
    if whole == 0 then 0.0 else Scale(whole - 1, share) + share
  }

  lemma {:induction false} ScaleIsProduct(whole: nat, share: real)
    requires 0.0 <= share < 1.0
    ensures Scale(whole, share) == whole as real * share
    decreases whole
  {
    if whole > 0 {
      ScaleIsProduct(whole - 1, share);
      assert (whole - 1) as real * share + share == whole as real * share;
    }
  }

  lemma FloorMonotone(x: real, y: real)
    requires x <= y
    ensures x.Floor <= y.Floor
  {
    assert x.Floor as real <= x;
    assert y < y.Floor as real + 1.0;
  }

  lemma ProductNonNegative(a: real, b: real)
    requires a >= 0.0 && b >= 0.0
    ensures a * b >= 0.0
  {
  }

  lemma ProductBelowOne(a: real, b: real)
    requires 0.0 <= a <= 1.0 && 0.0 <= b < 1.0
    ensures a * b < 1.0
  {
    ProductNonNegative(1.0 - a, b);
    assert (1.0 - a) * b == b - a * b;
    assert a * b <= b;
  }

  const MsPerDay: int := 1000 * 60 * 60 * 24

  /** `Math.ceil((deadline - now) / msPerDay)`: the whole days until the
      deadline, rounded up, negative once it has passed. */
  function DaysLeft(deadlineMs: int, nowMs: int): (days: int)
    ensures (days - 1) * MsPerDay < deadlineMs - nowMs <= days * MsPerDay
  {
    -((nowMs - deadlineMs) / MsPerDay)
  }

  datatype Scored = Scored(drop: Drop, eligible: bool, amount: int, daysLeft: int)

  /** The per-drop map step: eligibility, the randomised amount (0 when not
      eligible) and the days left. */
  function Score(drop: Drop, txCount: nat, balance: real, random: real, deadlineMs: int, nowMs: int): (s: Scored)
    requires 0.0 <= random < 1.0
    ensures s.drop == drop && s.daysLeft == DaysLeft(deadlineMs, nowMs)
    ensures s.eligible <==> Eligible(drop, txCount, balance)
    ensures !s.eligible ==> s.amount == 0
    ensures s.eligible && drop.minValue >= 0.0 ==> 0 <= s.amount <= drop.maxReward
  {
    var days := DaysLeft(deadlineMs, nowMs);
    if Eligible(drop, txCount, balance) && ActivityMultiplier(txCount, balance) >= 0.0 then
      Scored(drop, true, RewardAmount(drop.maxReward, ActivityMultiplier(txCount, balance), random), days)
    else if Eligible(drop, txCount, balance) then
      // a negative multiplier needs a negative balance, hence a negative minimum
      Scored(drop, true, FloorOfShare(drop.maxReward, ActivityMultiplier(txCount, balance), random), days)
    else
      Scored(drop, false, 0, days)
  }

  /** An eligible drop's amount is the floor of the source's product
      `maxReward * Math.min(multiplier, 1) * (0.5 + random * 0.5)`, whatever
      the sign of the multiplier. */
  lemma ScoreAmountIsFloor(drop: Drop, txCount: nat, balance: real, random: real, deadlineMs: int, nowMs: int)
    requires 0.0 <= random < 1.0
    requires Eligible(drop, txCount, balance)
    ensures var m := ActivityMultiplier(txCount, balance);
      var x := drop.maxReward as real * MinReal(m, 1.0) * (0.5 + random * 0.5);
      var a := Score(drop, txCount, balance, random, deadlineMs, nowMs).amount as real;
      a <= x < a + 1.0
  {
    var m := ActivityMultiplier(txCount, balance);
    var amount := Score(drop, txCount, balance, random, deadlineMs, nowMs).amount;
    if m >= 0.0 {
      assert amount == RewardAmount(drop.maxReward, m, random);
      RewardAmountIsFloor(drop.maxReward, m, random);
    } else {
      assert amount == FloorOfShare(drop.maxReward, m, random);
      assert MinReal(m, 1.0) == m;
    }
  }

  lemma FloorBounds(x: real)
    ensures x.Floor as real <= x < x.Floor as real + 1.0
  {
  }

  /** `Math.floor(maxReward * multiplier * (0.5 + random * 0.5))` for a
      multiplier that `Math.min(multiplier, 1)` leaves unchanged. */
  function FloorOfShare(maxReward: nat, multiplier: real, random: real): (a: int)
    ensures var x := maxReward as real * multiplier * (0.5 + random * 0.5);
      a as real <= x < a as real + 1.0
  {
    var x := maxReward as real * multiplier * (0.5 + random * 0.5);
    FloorBounds(x);
    x.Floor
  }

  /** All draws are in `[0, 1)`, as `Math.random` promises. */
  predicate ValidDraws(draws: seq<real>) {
    forall k :: 0 <= k < |draws| ==> 0.0 <= draws[k] < 1.0
  }

  /** `AIRDROP_DATABASE.map(...)`, the `k`-th drop using the `k`-th draw. */
  function ScoreAll(drops: seq<Drop>, txCount: nat, balance: real, draws: seq<real>, dateMs: string -> int, nowMs: int): (r: seq<Scored>)
    requires |draws| == |drops| && ValidDraws(draws)
    ensures |r| == |drops|
    ensures forall k :: 0 <= k < |drops| ==> r[k] == Score(drops[k], txCount, balance, draws[k], dateMs(drops[k].deadline), nowMs)
  {
    if |drops| == 0 then []
    else [Score(drops[0], txCount, balance, draws[0], dateMs(drops[0].deadline), nowMs)]
         + ScoreAll(drops[1..], txCount, balance, draws[1..], dateMs, nowMs)
  }

  /** `.filter(d => d.eligible)`. */
  function KeepEligible(s: seq<Scored>): (r: seq<Scored>)
    ensures |r| <= |s|
    ensures forall k :: 0 <= k < |r| ==> r[k].eligible
    ensures |r| == 0 <==> forall k :: 0 <= k < |s| ==> !s[k].eligible
  {
    if |s| == 0 then []
    else (if s[0].eligible then [s[0]] else []) + KeepEligible(s[1..])
  }

  /** The filter keeps every eligible record as often as it occurs and
      nothing else. */
  lemma {:induction false} KeepEligibleCounts(s: seq<Scored>, x: Scored)
    ensures multiset(KeepEligible(s))[x] == (if x.eligible then multiset(s)[x] else 0)
  {
    if |s| > 0 {
      KeepEligibleCounts(s[1..], x);
      assert s == [s[0]] + s[1..];
    }
  }

  /** The kept records are exactly the eligible records of the input. */
  lemma KeepEligibleMembers(s: seq<Scored>)
    ensures forall x :: x in KeepEligible(s) <==> x in s && x.eligible
  {
    forall x ensures x in KeepEligible(s) <==> x in s && x.eligible {
      KeepEligibleCounts(s, x);
      assert x in KeepEligible(s) <==> x in multiset(KeepEligible(s));
      assert x in s <==> x in multiset(s);
    }
  }

  /** The filter keeps order: filtering a concatenation concatenates the
      filtered parts, so an eligible record stays ahead of every later one. */
  lemma {:induction false} KeepEligibleAppend(a: seq<Scored>, b: seq<Scored>)
    ensures KeepEligible(a + b) == KeepEligible(a) + KeepEligible(b)
  {
    if |a| == 0 {
      assert a + b == b;
    } else {
      var head := if a[0].eligible then [a[0]] else [];
      calc {
        KeepEligible(a + b);
        { KeepEligibleCons(a[0], a[1..] + b); assert [a[0]] + (a[1..] + b) == a + b; }
        head + KeepEligible(a[1..] + b);
        { KeepEligibleAppend(a[1..], b); }
        head + (KeepEligible(a[1..]) + KeepEligible(b));
        { Text.ConcatAssociates(head, KeepEligible(a[1..]), KeepEligible(b)); }
        (head + KeepEligible(a[1..])) + KeepEligible(b);
        { KeepEligibleCons(a[0], a[1..]); assert [a[0]] + a[1..] == a; }
        KeepEligible(a) + KeepEligible(b);
      }
    }
  }

  lemma KeepEligibleCons(y: Scored, rest: seq<Scored>)
    ensures KeepEligible([y] + rest) == (if y.eligible then [y] else []) + KeepEligible(rest)
  {
    assert ([y] + rest)[0] == y;
    assert ([y] + rest)[1..] == rest;
  }

  /** One record is kept exactly when it is eligible. */
  lemma KeepEligibleSingle(x: Scored)
    ensures KeepEligible([x]) == (if x.eligible then [x] else [])
  {
    assert [x][1..] == [];
  }

  /** Non-increasing amounts. */
  predicate SortedDesc(s: seq<Scored>) {
    forall i, j :: 0 <= i < j < |s| ==> s[i].amount >= s[j].amount
  }

  /** The records with one given amount, in order. */
  function WithAmount(s: seq<Scored>, amount: int): (r: seq<Scored>)
    ensures |r| <= |s|
  {
    if |s| == 0 then []
    else (if s[0].amount == amount then [s[0]] else []) + WithAmount(s[1..], amount)
  }

  /** Places `x` before the first record whose amount is not larger: among
      equal amounts it goes first. */
  function Insert(x: Scored, s: seq<Scored>): (r: seq<Scored>)
    ensures |r| == |s| + 1
  {
    if |s| == 0 || s[0].amount <= x.amount then [x] + s
    else [s[0]] + Insert(x, s[1..])
  }

  /** Insertion adds exactly `x`. */
  lemma {:induction false} InsertPermutes(x: Scored, s: seq<Scored>)
    ensures multiset(Insert(x, s)) == multiset(s) + multiset{x}
  {
    if |s| > 0 && s[0].amount > x.amount {
      InsertPermutes(x, s[1..]);
      assert s == [s[0]] + s[1..];
    }
  }

  /** Insertion into a non-increasing sequence keeps it non-increasing. */
  lemma {:induction false} InsertSorted(x: Scored, s: seq<Scored>)
    requires SortedDesc(s)
    ensures SortedDesc(Insert(x, s))
  {
    if |s| > 0 && s[0].amount > x.amount {
      InsertSorted(x, s[1..]);
      InsertPermutes(x, s[1..]);
      var t := Insert(x, s[1..]);
      forall k | 0 <= k < |t| ensures s[0].amount >= t[k].amount {
        assert t[k] in multiset(t);
        if t[k] != x {
          assert t[k] in multiset(s[1..]);
          var m :| 0 <= m < |s[1..]| && s[1..][m] == t[k];
          assert s[m + 1] == t[k];
        }
      }
      assert Insert(x, s) == [s[0]] + t;
    }
  }

  /** Insertion keeps the relative order of every amount class: `x` joins
      its class at the front and the other classes are unchanged. */
  lemma {:induction false} InsertStable(x: Scored, s: seq<Scored>, amount: int)
    ensures WithAmount(Insert(x, s), amount) ==
            (if x.amount == amount then [x] else []) + WithAmount(s, amount)
  {
    if |s| == 0 || s[0].amount <= x.amount {
      WithAmountCons(x, s, amount);
    } else {
      InsertStable(x, s[1..], amount);
      WithAmountCons(s[0], Insert(x, s[1..]), amount);
      WithAmountCons(s[0], s[1..], amount);
      assert [s[0]] + s[1..] == s;
    }
  }

  lemma WithAmountCons(y: Scored, rest: seq<Scored>, amount: int)
    ensures WithAmount([y] + rest, amount) == (if y.amount == amount then [y] else []) + WithAmount(rest, amount)
  {
    assert ([y] + rest)[0] == y;
    assert ([y] + rest)[1..] == rest;
  }

  /** `.sort((a, b) => b.amount - a.amount)`; the engine's sort is stable. */
  function SortByAmountDesc(s: seq<Scored>): (r: seq<Scored>)
    ensures |r| == |s|
  {
    if |s| == 0 then [] else Insert(s[0], SortByAmountDesc(s[1..]))
  }

  /** The sort yields non-increasing amounts, the same records, and within
      every amount the original order. */
  lemma {:induction false} SortCorrect(s: seq<Scored>)
    ensures SortedDesc(SortByAmountDesc(s))
    ensures multiset(SortByAmountDesc(s)) == multiset(s)
    ensures forall amount :: WithAmount(SortByAmountDesc(s), amount) == WithAmount(s, amount)
  {
    if |s| > 0 {
      SortCorrect(s[1..]);
      InsertSorted(s[0], SortByAmountDesc(s[1..]));
      InsertPermutes(s[0], SortByAmountDesc(s[1..]));
      assert s == [s[0]] + s[1..];
      forall amount ensures WithAmount(SortByAmountDesc(s), amount) == WithAmount(s, amount) {
        InsertStable(s[0], SortByAmountDesc(s[1..]), amount);
      }
    }
  }

  /** The eligible scored drops, in database order. */
  function Candidates(drops: seq<Drop>, txCount: nat, balance: real, draws: seq<real>, dateMs: string -> int, nowMs: int): seq<Scored>
    requires |draws| == |drops| && ValidDraws(draws)
  {
    KeepEligible(ScoreAll(drops, txCount, balance, draws, dateMs, nowMs))
  }

  /** `checkAirdropEligibility`: the eligible drops, largest amount first,
      ties in database order. */
  function CheckAirdropEligibility(drops: seq<Drop>, txCount: nat, balance: real, draws: seq<real>, dateMs: string -> int, nowMs: int): (r: seq<Scored>)
    requires |draws| == |drops| && ValidDraws(draws)
    ensures var candidates := Candidates(drops, txCount, balance, draws, dateMs, nowMs);
      && SortedDesc(r)
      && multiset(r) == multiset(candidates)
      && (forall amount :: WithAmount(r, amount) == WithAmount(candidates, amount))
    ensures forall k :: 0 <= k < |r| ==> Entitled(r[k], txCount, balance)
    ensures |r| == 0 <==> forall k :: 0 <= k < |drops| ==> !Eligible(drops[k], txCount, balance)
  {
    var candidates := Candidates(drops, txCount, balance, draws, dateMs, nowMs);
    SortCorrect(candidates);
    CandidatesEntitled(drops, txCount, balance, draws, dateMs, nowMs);
    EntitlementTransfers(SortByAmountDesc(candidates), candidates, txCount, balance);
    SortByAmountDesc(candidates)
  }

  /** A record in the result: eligible by the rule, with an amount within
      the drop's cap whenever its minimum balance is non-negative. */
  predicate Entitled(x: Scored, txCount: nat, balance: real) {
    && x.eligible
    && Eligible(x.drop, txCount, balance)
    && (x.drop.minValue >= 0.0 ==> 0 <= x.amount <= x.drop.maxReward)
  }

  lemma CandidatesEntitled(drops: seq<Drop>, txCount: nat, balance: real, draws: seq<real>, dateMs: string -> int, nowMs: int)
    requires |draws| == |drops| && ValidDraws(draws)
    ensures var c := Candidates(drops, txCount, balance, draws, dateMs, nowMs);
      && (forall x :: x in c ==> Entitled(x, txCount, balance))
      && (|c| == 0 <==> forall k :: 0 <= k < |drops| ==> !Eligible(drops[k], txCount, balance))
  {
    var scored := ScoreAll(drops, txCount, balance, draws, dateMs, nowMs);
    KeepEligibleMembers(scored);
    forall x | x in KeepEligible(scored) ensures Entitled(x, txCount, balance) {
      var j :| 0 <= j < |scored| && scored[j] == x;
    }
  }

  lemma EntitlementTransfers(r: seq<Scored>, c: seq<Scored>, txCount: nat, balance: real)
    requires multiset(r) == multiset(c)
    requires forall x :: x in c ==> Entitled(x, txCount, balance)
    ensures |r| == |c|
    ensures forall k :: 0 <= k < |r| ==> Entitled(r[k], txCount, balance)
  {
    assert |multiset(r)| == |multiset(c)|;
    forall k | 0 <= k < |r| ensures Entitled(r[k], txCount, balance) {
      assert r[k] in multiset(r);
    }
  }

  /** With no transactions nothing in the shipped database is eligible. */
  lemma InactiveAddressGetsNothing(balance: real, draws: seq<real>, dateMs: string -> int, nowMs: int)
    requires |draws| == |AirdropDatabase| && ValidDraws(draws)
    ensures CheckAirdropEligibility(AirdropDatabase, 0, balance, draws, dateMs, nowMs) == []
  {
    DatabaseNeedsTransactions();
  }

  lemma DatabaseNeedsTransactions()
    ensures forall k :: 0 <= k < |AirdropDatabase| ==> AirdropDatabase[k].minTx >= 3
  {
  }
}

=== FILE: quantity.dfy ===
/** JavaScript `parseInt` as the source uses it on Ethereum JSON-RPC
    quantities (`parseInt(x, 16)`) and on query parameters (`parseInt(x)`),
    together with the canonical quantity encoding `0x` + lower-case hex digits
    without leading zeros. */
module Quantity {

  /** The number `parseInt` produces: `NaN` when no digit could be read. */
  datatype Quantity = NaN | Num(n: nat)

  /** Value of `c` as a digit of any radix up to 16, if it is one. */
  function DigitValue(c: char): (d: int)
    ensures -1 <= d < 16
  {
    if '0' <= c <= '9' then c as int - '0' as int
    else if 'a' <= c <= 'f' then c as int - 'a' as int + 10
    else if 'A' <= c <= 'F' then c as int - 'A' as int + 10
    else -1
  }

  predicate IsDigitOf(c: char, radix: nat) {
    0 <= DigitValue(c) < radix
  }

  /** Length of the longest prefix of `s` made of digits of `radix`. */
  function DigitRun(s: string, radix: nat): (k: nat)
    ensures k <= |s|
    ensures forall i :: 0 <= i < k ==> IsDigitOf(s[i], radix)
    ensures k < |s| ==> !IsDigitOf(s[k], radix)
  {
    if |s| == 0 || !IsDigitOf(s[0], radix) then 0
    else 1 + DigitRun(s[1..], radix)
  }

  /** Big-endian value of a run of digits. */
  function DigitsValue(s: string, radix: nat): nat
    requires forall i :: 0 <= i < |s| ==> IsDigitOf(s[i], radix)
  {
    if |s| == 0 then 0
    else
      var init := s[..|s| - 1];
      assert forall i :: 0 <= i < |init| ==> init[i] == s[i];
      assert IsDigitOf(s[|s| - 1], radix);
      var high := DigitsValue(init, radix);
      NonNegativeProduct(radix, high);
      radix * high + DigitValue(s[|s| - 1])
  }

  lemma NonNegativeProduct(a: nat, b: nat)
    ensures a * b >= 0
  {
  }

  /** Reads the longest digit prefix; `NaN` when there is none. */
  function ReadDigits(s: string, radix: nat): (q: Quantity)
    ensures q.NaN? <==> (|s| == 0 || !IsDigitOf(s[0], radix))
  {
    var k := DigitRun(s, radix);
    if k == 0 then NaN else Num(DigitsValue(s[..k], radix))
  }

  predicate HasHexPrefix(s: string) {
    |s| >= 2 && s[0] == '0' && (s[1] == 'x' || s[1] == 'X')
  }

  /** The text `parseInt` reads digits from once a `0x`/`0X` prefix, if any,
      is dropped. */
  function HexBody(s: string): string {
    if HasHexPrefix(s) then s[2..] else s
  }

  /** `parseInt(s, 16)`: an optional `0x`/`0X` prefix, then hex digits up to
      the first non-digit. Leading white space and a sign are not modelled. */
  function ParseHex(s: string): (q: Quantity)
    ensures q.NaN? <==> |HexBody(s)| == 0 || !IsDigitOf(HexBody(s)[0], 16)
    ensures |s| > 0 && IsDigitOf(s[0], 16) && !HasHexPrefix(s) ==> q.Num?
  {
    if HasHexPrefix(s) then ReadDigits(s[2..], 16) else ReadDigits(s, 16)
  }

  /** The `0x` prefix is optional for radix 16: `parseInt('0xff', 16)` and
      `parseInt('ff', 16)` agree. */
  lemma ParseHexPrefixOptional(t: string)
    requires !HasHexPrefix(t)
    ensures ParseHex("0x" + t) == ParseHex(t)
    ensures ParseHex("0X" + t) == ParseHex(t)
  {
    assert ("0x" + t)[2..] == t;
    assert ("0X" + t)[2..] == t;
  }

  /** `parseInt(s)` without a radix: radix 16 after a `0x`/`0X` prefix,
      radix 10 otherwise. */
  function ParseAuto(s: string): (q: Quantity)
    ensures HasHexPrefix(s) ==> q == ParseHex(s)
    ensures !HasHexPrefix(s) ==> (q.NaN? <==> |s| == 0 || !IsDigitOf(s[0], 10))
  {
    if HasHexPrefix(s) then ReadDigits(s[2..], 16) else ReadDigits(s, 10)
  }

  /** Decimal digits followed by text that does not continue them read back
      as their decimal value, as `parseInt('137')` gives 137. */
  lemma ParseAutoDecimal(digits: string, rest: string)
    requires |digits| > 0
    requires forall i :: 0 <= i < |digits| ==> IsDigitOf(digits[i], 10)
    requires |rest| == 0 || !IsDigitOf(rest[0], 10)
    requires !HasHexPrefix(digits + rest)
    ensures ParseAuto(digits + rest) == Num(DigitsValue(digits, 10))
  {
    TrailingTextIgnored(digits, rest, 10);
  }

  /** The lower-case hex digit for `d`. */
  function HexChar(d: nat): (c: char)
    requires d < 16
    ensures DigitValue(c) == d
  {
    if d < 10 then ('0' as int + d) as char else ('a' as int + d - 10) as char
  }

  /** Minimal lower-case hex digits of `n` ("0" for zero). */
  function HexDigits(n: nat): (s: string)
    ensures |s| >= 1
    ensures forall i :: 0 <= i < |s| ==> IsDigitOf(s[i], 16)
    ensures n > 0 ==> s[0] != '0'
  {
    if n < 16 then [HexChar(n)]
    else HexDigits(n / 16) + [HexChar(n % 16)]
  }

  /** The JSON-RPC encoding of a quantity, e.g. `0x0`, `0x1a`. */
  function EncodeQuantity(n: nat): (s: string)
    ensures HasHexPrefix(s)
    ensures |s| >= 3
  {
    "0x" + HexDigits(n)
  }

  /** The digits of `n` read back as `n`. */
  lemma {:induction false} HexDigitsValue(n: nat)
    ensures DigitsValue(HexDigits(n), 16) == n
  {
    var s := HexDigits(n);
    if n >= 16 {
      HexDigitsValue(n / 16);
      assert s[..|s| - 1] == HexDigits(n / 16);
    }
  }

  /** Round trip: `parseInt(encode(n), 16) == n` for every quantity. */
  lemma DecodeEncode(n: nat)
    ensures ParseHex(EncodeQuantity(n)) == Num(n)
  {
    var s := EncodeQuantity(n);
    var d := HexDigits(n);
    assert s[2..] == d;
    assert DigitRun(d, 16) == |d|;
    assert d[..|d|] == d;
    HexDigitsValue(n);
  }

  /** `parseInt` stops at the first non-digit: trailing text is ignored. */
  lemma {:induction false} TrailingTextIgnored(digits: string, rest: string, radix: nat)
    requires |digits| > 0
    requires forall i :: 0 <= i < |digits| ==> IsDigitOf(digits[i], radix)
    requires |rest| == 0 || !IsDigitOf(rest[0], radix)
    ensures ReadDigits(digits + rest, radix) == Num(DigitsValue(digits, radix))
  {
    DigitRunPrefix(digits, rest, radix);
    assert (digits + rest)[..|digits|] == digits;
  }

  lemma {:induction false} DigitRunPrefix(digits: string, rest: string, radix: nat)
    requires forall i :: 0 <= i < |digits| ==> IsDigitOf(digits[i], radix)
    requires |rest| == 0 || !IsDigitOf(rest[0], radix)
    ensures DigitRun(digits + rest, radix) == |digits|
  {
    var s := digits + rest;
    if |digits| == 0 {
      assert s == rest;
    } else {
      assert s[0] == digits[0];
      assert s[1..] == digits[1..] + rest;
      DigitRunPrefix(digits[1..], rest, radix);
    }
  }
}

/** `parseInt(v, 16)` applied to a JSON-RPC `result` field. */
module HexValue {
  import opened Wrappers
  import opened Json
  import opened Quantity

  /** `parseInt(v, 16)` on a possibly `undefined` value: `undefined` is
      `NaN`, anything else is read through its string form. */
  function ParseHexValue(v: Value): (q: Quantity)
    ensures v.None? ==> q.NaN?
    ensures (v.Some? && v.value.JStr?) ==> q == ParseHex(v.value.s)
    ensures (v.Some? && v.value.JArr? && |v.value.items| > 0) ==> q == ParseHexJson(v.value.items[0])
    ensures v == Some(JNull) || v == Some(JBool(true)) || v == Some(JArr([])) || (v.Some? && v.value.JObj?) ==> q.NaN?
  {
    if v.None? then NaN else ParseHexJson(v.value)
  }

  /** `parseInt(String(j), 16)` for a defined value. A string is read
      directly; `"null"`, `"true"` and `"[object Object]"` start with no hex
      digit, while `"false"` starts with the hex digits `fa`. An array reads
      through its comma-joined text, whose hex prefix is that of its first
      element (`[]` joins as the empty string). Numbers read as `NaN`. */
  function ParseHexJson(j: Json): Quantity {
    match j
    case JStr(s) => ParseHex(s)
    case JBool(b) => ParseHex(if b then "true" else "false")
    case JArr(items) => if |items| == 0 then NaN else ParseHexJson(items[0])
    case _ => NaN
  }

  /** `parseInt(false, 16)` reads the text "false", whose hex prefix is
      `fa`. */
  lemma FalseReadsAsHex()
    ensures ParseHexValue(Some(JBool(false))) == Num(250)
  {
    TrailingTextIgnored("fa", "lse", 16);
    assert "false" == "fa" + "lse";
    assert "fa"[..1] == "f";
  }

  /** A node's encoded quantity decodes to the number it encodes. */
  lemma DecodeResult(n: nat)
    ensures ParseHexValue(Some(JStr(EncodeQuantity(n)))) == Num(n)
  {
    DecodeEncode(n);
  }
}

=== FILE: rpc.dfy ===
/** The client-side resilient RPC client: a registry of public endpoints per
    chain, a first-success scan over them, and the account analyzer that
    derives metrics from two such calls. The network is a parameter: `net(url,
    request)` is what that endpoint does with that POST. */
module Rpc {
  import opened Wrappers
  import opened Json
  import opened Quantity
  import opened HexValue
  import Metrics

  datatype Chain = Chain(name: string, symbol: string, rpcs: seq<string>)

  /** The registry of supported chains and their ordered public endpoints. */
  const Chains: map<int, Chain> := map[
    1 := Chain("Ethereum", "ETH", ["https://eth.llamarpc.com", "https://rpc.ankr.com/eth", "https://ethereum.publicnode.com"]),
    137 := Chain("Polygon", "MATIC", ["https://polygon.llamarpc.com", "https://rpc.ankr.com/polygon", "https://polygon-rpc.com"]),
    42161 := Chain("Arbitrum", "ETH", ["https://arbitrum.llamarpc.com", "https://rpc.ankr.com/arbitrum", "https://arb1.arbitrum.io/rpc"]),
    10 := Chain("Optimism", "ETH", ["https://optimism.llamarpc.com", "https://rpc.ankr.com/optimism", "https://mainnet.optimism.io"]),
    8453 := Chain("Base", "ETH", ["https://base.llamarpc.com", "https://mainnet.base.org", "https://base.publicnode.com"]),
    56 := Chain("BSC", "BNB", ["https://bsc-dataseed.binance.org", "https://bsc.publicnode.com", "https://rpc.ankr.com/bsc"]),
    43114 := Chain("Avalanche", "AVAX", ["https://api.avax.network/ext/bc/C/rpc", "https://avalanche.publicnode.com", "https://rpc.ankr.com/avalanche"]),
    59144 := Chain("Linea", "ETH", ["https://rpc.linea.build", "https://linea.drpc.org"]),
    534352 := Chain("Scroll", "ETH", ["https://rpc.scroll.io", "https://scroll.drpc.org"]),
    1088 := Chain("Metis", "METIS", ["https://andromeda.metis.io/?owner=1088"])
  ]

  /** A JSON-RPC 2.0 request body; the `id` (a timestamp) is not modelled. */
  datatype Request = Request(rpcMethod: string, params: seq<Json>)

  /** What one endpoint did with one POST. */
  datatype Attempt =
    | Thrown                            // transport error, the 5 s abort, or a body that is not JSON
    | Answered(status: int, body: Json) // an HTTP response and its parsed body

  type Network = (string, Request) -> Attempt

  /** How the loop body treats an attempt: move on, or return `data.result`. */
  datatype Verdict = Failed | Succeeded(result: Value)

  /** A non-2xx status, a `null` body (reading `.error` of it throws) and a
      truthy `error` field are failures; anything else succeeds with its
      `result` field, which may be `undefined`. */
  function Classify(a: Attempt): (v: Verdict)
    ensures a.Thrown? ==> v.Failed?
    ensures a.Answered? && !(200 <= a.status <= 299) ==> v.Failed?
    ensures a.Answered? && Truthy(Prop(Some(a.body), "error")) ==> v.Failed?
    ensures v.Succeeded? <==>
      a.Answered? && 200 <= a.status <= 299 && a.body != JNull && !Truthy(Prop(Some(a.body), "error"))
    ensures v.Succeeded? ==> v.result == Prop(Some(a.body), "result")
  {
    match a
    case Thrown => Failed
    case Answered(status, body) =>
      if !(200 <= status <= 299) then Failed
      else if body == JNull then Failed
      else if Truthy(Prop(Some(body), "error")) then Failed
      else Succeeded(Prop(Some(body), "result"))
  }

  predicate FailsAt(rpcs: seq<string>, i: int, req: Request, net: Network)
    requires 0 <= i < |rpcs|
  {
    Classify(net(rpcs[i], req)).Failed?
  }

  /** The outcome of walking an endpoint list: the payload found, if any, and
      how many endpoints were contacted. */
  datatype Walk = Walk(found: Option<Value>, tried: nat)

  /** Tries `rpcs` front to back and stops at the first success. */
  function TryEndpoints(rpcs: seq<string>, req: Request, net: Network): (w: Walk)
    ensures w.tried <= |rpcs|
    ensures w.found.Some? ==> w.tried >= 1 && Classify(net(rpcs[w.tried - 1], req)) == Succeeded(w.found.value)
    ensures w.found.Some? ==> forall i :: 0 <= i < w.tried - 1 ==> FailsAt(rpcs, i, req, net)
    ensures w.found.None? ==> w.tried == |rpcs| && forall i :: 0 <= i < |rpcs| ==> FailsAt(rpcs, i, req, net)
  {
    if |rpcs| == 0 then Walk(None, 0)
    else
      match Classify(net(rpcs[0], req))
      case Succeeded(v) => Walk(Some(v), 1)
      case Failed =>
        var rest := TryEndpoints(rpcs[1..], req, net);
        assert forall i :: 0 < i < |rpcs| ==> FailsAt(rpcs[1..], i - 1, req, net) ==> FailsAt(rpcs, i, req, net);
        Walk(rest.found, rest.tried + 1)
  }

  datatype RpcError =
    | ChainNotSupported       // 'Chain not supported'
    | AllRpcsFailed(chainId: int) // 'All RPCs failed for chain N'

  /** One logical call: its outcome and the endpoints contacted, in order. */
  datatype Call = Call(outcome: Result<Value, RpcError>, contacted: seq<string>)

  /** `fetchWithFallback(chainId, method, params)`. */
  function FetchWithFallback(chains: map<int, Chain>, chainId: int, req: Request, net: Network): (c: Call)
    ensures chainId !in chains ==> c.outcome == Failure(ChainNotSupported) && c.contacted == []
    ensures chainId in chains ==> |c.contacted| <= |chains[chainId].rpcs| && c.contacted == chains[chainId].rpcs[..|c.contacted|]
    ensures forall i :: 0 <= i < |c.contacted| - 1 ==> Classify(net(c.contacted[i], req)).Failed?
    ensures c.outcome.Success? ==>
      |c.contacted| >= 1 && Classify(net(c.contacted[|c.contacted| - 1], req)) == Succeeded(c.outcome.value)
    ensures chainId in chains && c.outcome.Failure? ==>
      && c.outcome.error == AllRpcsFailed(chainId)
      && c.contacted == chains[chainId].rpcs
      && forall i :: 0 <= i < |c.contacted| ==> Classify(net(c.contacted[i], req)).Failed?
  {
    if chainId !in chains then Call(Failure(ChainNotSupported), [])
    else
      var rpcs := chains[chainId].rpcs;
      var w := TryEndpoints(rpcs, req, net);
      var contacted := rpcs[..w.tried];
      assert forall i :: 0 <= i < w.tried ==>
        contacted[i] == rpcs[i] && (FailsAt(rpcs, i, req, net) <==> Classify(net(contacted[i], req)).Failed?);
      match w.found
      case Some(v) => Call(Success(v), contacted)
      case None => Call(Failure(AllRpcsFailed(chainId)), contacted)
  }

  /** The walk stops at the first endpoint that succeeds. */
  lemma {:induction false} WalkStopsAtFirstSuccess(rpcs: seq<string>, req: Request, net: Network, k: nat)
    requires k < |rpcs|
    requires forall i :: 0 <= i < k ==> FailsAt(rpcs, i, req, net)
    requires Classify(net(rpcs[k], req)).Succeeded?
    ensures TryEndpoints(rpcs, req, net) == Walk(Some(Classify(net(rpcs[k], req)).result), k + 1)
  {
    if k > 0 {
      assert FailsAt(rpcs, 0, req, net);
      assert forall i :: 0 <= i < k - 1 ==> rpcs[1..][i] == rpcs[i + 1] && FailsAt(rpcs, i + 1, req, net);
      WalkStopsAtFirstSuccess(rpcs[1..], req, net, k - 1);
    }
  }

  /** If endpoint `k` is the first one to succeed, the call returns its
      `result` and endpoints after `k` are never contacted. */
  lemma FirstSuccessWins(chains: map<int, Chain>, chainId: int, req: Request, net: Network, k: nat)
    requires chainId in chains && k < |chains[chainId].rpcs|
    requires forall i :: 0 <= i < k ==> FailsAt(chains[chainId].rpcs, i, req, net)
    requires Classify(net(chains[chainId].rpcs[k], req)).Succeeded?
    ensures FetchWithFallback(chains, chainId, req, net) ==
      Call(Success(Classify(net(chains[chainId].rpcs[k], req)).result), chains[chainId].rpcs[..k + 1])
  {
    WalkStopsAtFirstSuccess(chains[chainId].rpcs, req, net, k);
  }

  /** The two requests `analyzeAddress` issues. */
  function BalanceRequest(address: string): Request {
    Request("eth_getBalance", [JStr(address), JStr("latest")])
  }

  function TxCountRequest(address: string): Request {
    Request("eth_getTransactionCount", [JStr(address), JStr("latest")])
  }

  /** The analyzer's record. The balance stays in wei (its division by 1e18 and
      `toFixed` formatting are not modelled); `derived` is `None` where the
      transaction count is `NaN`, whose derived fields would all be `NaN`. */
  datatype Analysis = Analysis(
    address: string,
    chainId: int,
    chainName: string,
    symbol: string,
    balanceWei: Quantity,
    txCount: Quantity,
    derived: Option<Metrics.Derived>)

  /** The derived fields for a decoded transaction count. */
  function DeriveFor(chainId: int, tx: Quantity): (d: Option<Metrics.Derived>)
    ensures d.Some? <==> tx.Num?
  {
    match tx
    case NaN => None
    case Num(n) => Some(Metrics.Derive(chainId, n))
  }

  /** `analyzeAddress(address, chainId)`: both calls must succeed; the first
      failure is the error (both fail alike, for the same chain). */
  function AnalyzeAddress(chains: map<int, Chain>, address: string, chainId: int, net: Network): (r: Result<Analysis, RpcError>)
    ensures r.Success? <==>
      FetchWithFallback(chains, chainId, BalanceRequest(address), net).outcome.Success? &&
      FetchWithFallback(chains, chainId, TxCountRequest(address), net).outcome.Success?
    ensures r.Failure? ==> r.error == if chainId in chains then AllRpcsFailed(chainId) else ChainNotSupported
    ensures r.Success? ==>
      var tx := ParseHexValue(FetchWithFallback(chains, chainId, TxCountRequest(address), net).outcome.value);
      && chainId in chains
      && r.value.chainName == chains[chainId].name
      && r.value.symbol == chains[chainId].symbol
      && r.value.txCount == tx
      && r.value.balanceWei == ParseHexValue(FetchWithFallback(chains, chainId, BalanceRequest(address), net).outcome.value)
      && r.value.address == address
      && r.value.chainId == chainId
      && (tx.Num? ==> r.value.derived == Some(Metrics.Derive(chainId, tx.n)))
      && (tx.NaN? ==> r.value.derived.None?)
  {
    var balance := FetchWithFallback(chains, chainId, BalanceRequest(address), net).outcome;
    var txCount := FetchWithFallback(chains, chainId, TxCountRequest(address), net).outcome;
    if balance.Failure? then Failure(balance.error)
    else if txCount.Failure? then Failure(txCount.error)
    else
      var chain := chains[chainId];
      var tx := ParseHexValue(txCount.value);
      Success(Analysis(address, chainId, chain.name, chain.symbol, ParseHexValue(balance.value), tx, DeriveFor(chainId, tx)))
  }

  /** Every registered chain has at least one endpoint, so a registered chain
      always contacts its first endpoint. */
  lemma RegistryNonEmpty()
    ensures forall id :: id in Chains ==> |Chains[id].rpcs| >= 1
    ensures Chains.Keys == {1, 137, 42161, 10, 8453, 56, 43114, 59144, 534352, 1088}
  {
  }

  /** On Ethereum, a timeout at the first endpoint and a success at the second
      returns the second's result and never contacts the third. */
  lemma SecondEndpointExample(req: Request, net: Network)
    requires net("https://eth.llamarpc.com", req) == Thrown
    requires Classify(net("https://rpc.ankr.com/eth", req)).Succeeded?
    ensures FetchWithFallback(Chains, 1, req, net).outcome == Success(Classify(net("https://rpc.ankr.com/eth", req)).result)
    ensures "https://ethereum.publicnode.com" !in FetchWithFallback(Chains, 1, req, net).contacted
  {
    var rpcs := Chains[1].rpcs;
    assert FailsAt(rpcs, 0, req, net);
    FirstSuccessWins(Chains, 1, req, net, 1);
    assert rpcs[..2] == ["https://eth.llamarpc.com", "https://rpc.ankr.com/eth"];
  }
}

=== FILE: text.dfy ===
/** String helpers with the semantics of the JavaScript string methods the
    source relies on: `includes`, `split` on one character, `replace` with a
    string pattern, and `toLowerCase` restricted to ASCII. */
module Text {

  /** `t` occurs in `s` starting at index `i`. */
  predicate OccursAt(s: string, t: string, i: int) {
    0 <= i <= |s| - |t| && s[i..i + |t|] == t
  }

  /** `s.includes(t)`: `t` occurs in `s` at some position. */
  predicate Contains(s: string, t: string)
    ensures Contains(s, t) ==> |t| <= |s|
    ensures |t| <= |s| && s[..|t|] == t ==> Contains(s, t)
  {
    assert |t| <= |s| && s[..|t|] == t ==> OccursAt(s, t, 0);
    exists i :: 0 <= i <= |s| - |t| && OccursAt(s, t, i)
  }

  /** A string that lacks one of the characters of `t` cannot contain `t`. */
  lemma MissingCharNotContained(s: string, t: string, c: char)
    requires c in t && c !in s
    ensures !Contains(s, t)
  {
    var k :| 0 <= k < |t| && t[k] == c;
    forall i | 0 <= i <= |s| - |t|
      ensures !OccursAt(s, t, i)
    {
      assert s[i..i + |t|][k] == s[i + k];
    }
  }

  /** `t` is found in any text built around it. */
  lemma ContainsInfix(a: string, t: string, b: string)
    ensures Contains(a + t + b, t)
  {
    assert (a + t + b)[|a|..|a| + |t|] == t;
    assert OccursAt(a + t + b, t, |a|);
  }

  /** ASCII lower-casing of one character. */
  function LowerChar(c: char): char {
    if 'A' <= c <= 'Z' then (c as int + 32) as char else c
  }

  /** `s.toLowerCase()` over ASCII letters. */
  function Lower(s: string): (r: string)
    ensures |r| == |s|
    ensures forall i :: 0 <= i < |s| ==> r[i] == LowerChar(s[i])
    ensures forall i :: 0 <= i < |r| ==> !('A' <= r[i] <= 'Z')
  {
    seq(|s|, i requires 0 <= i < |s| => LowerChar(s[i]))
  }

  /** Index of the first `c` in `s`, which must occur. */
  function FirstIndex(s: string, c: char): (i: nat)
    requires c in s
    ensures i < |s| && s[i] == c
    ensures forall m :: 0 <= m < i ==> s[m] != c
  {
    if s[0] == c then 0
    else 1 + FirstIndex(s[1..], c)
  }

  /** `s.split(sep)` for a one-character separator: the text before the
      first separator, then the pieces of the rest; the empty string splits
      into one empty piece. */
  function Split(s: string, sep: char): (pieces: seq<string>)
    ensures |pieces| >= 1
    ensures forall k :: 0 <= k < |pieces| ==> sep !in pieces[k]
    decreases |s|
  {
    if sep !in s then [s]
    else
      var i := FirstIndex(s, sep);
      assert forall m :: 0 <= m < i ==> s[..i][m] == s[m];
      [s[..i]] + Split(s[i + 1..], sep)
  }

  /** `pieces.join(sep)`. */
  function Join(pieces: seq<string>, sep: char): string {
    if |pieces| == 0 then ""
    else if |pieces| == 1 then pieces[0]
    else pieces[0] + [sep] + Join(pieces[1..], sep)
  }

  /** Round trip: joining the pieces with the separator gives the text
      back, so `split` loses nothing but the separators. */
  lemma {:induction false} JoinSplit(s: string, sep: char)
    ensures Join(Split(s, sep), sep) == s
    decreases |s|
  {
    if sep in s {
      var i := FirstIndex(s, sep);
      var rest := Split(s[i + 1..], sep);
      JoinSplit(s[i + 1..], sep);
      SplitAtFirst(s, sep);
      assert ([s[..i]] + rest)[1..] == rest;
      assert s == s[..i] + [sep] + s[i + 1..];
    }
  }

  /** One unfolding of `Split` at the first separator. */
  lemma SplitAtFirst(s: string, sep: char)
    requires sep in s
    ensures Split(s, sep) == [s[..FirstIndex(s, sep)]] + Split(s[FirstIndex(s, sep) + 1..], sep)
  {
  }

  /** The first occurrence is the only position holding `c` with no `c`
      before it. */
  lemma FirstIndexUnique(s: string, c: char, k: nat)
    requires k < |s| && s[k] == c
    requires forall m :: 0 <= m < k ==> s[m] != c
    ensures FirstIndex(s, c) == k
  {
  }

  /** The first separator of `a + sep + b` is the first one of `a`, or the
      inserted one when `a` has none. */
  lemma FirstIndexJoin(a: string, b: string, sep: char)
    ensures sep in a + [sep] + b
    ensures FirstIndex(a + [sep] + b, sep) == if sep in a then FirstIndex(a, sep) else |a|
  {
    var s := a + [sep] + b;
    assert s[|a|] == sep;
    if sep in a {
      var i := FirstIndex(a, sep);
      FirstIndexUnique(s, sep, i);
    } else {
      FirstIndexUnique(s, sep, |a|);
    }
  }

  /** Splitting `a + sep + b` splits `a` and `b` independently. */
  lemma {:induction false} SplitJoin(a: string, b: string, sep: char)
    ensures Split(a + [sep] + b, sep) == Split(a, sep) + Split(b, sep)
    decreases |a|
  {
    if sep !in a {
      SplitJoinNoSeparator(a, b, sep);
    } else {
      var i := FirstIndex(a, sep);
      var rest := a[i + 1..];
      calc {
        Split(a + [sep] + b, sep);
      == { SplitJoinStep(a, b, sep); }
        [a[..i]] + Split(rest + [sep] + b, sep);
      == { SplitJoin(rest, b, sep); }
        [a[..i]] + (Split(rest, sep) + Split(b, sep));
      == { ConcatAssociates([a[..i]], Split(rest, sep), Split(b, sep)); }
        ([a[..i]] + Split(rest, sep)) + Split(b, sep);
      == { SplitAtFirst(a, sep); }
        Split(a, sep) + Split(b, sep);
      }
    }
  }

  lemma ConcatAssociates<T>(x: seq<T>, y: seq<T>, z: seq<T>)
    ensures x + (y + z) == (x + y) + z
  {
  }

  lemma SplitJoinNoSeparator(a: string, b: string, sep: char)
    requires sep !in a
    ensures Split(a + [sep] + b, sep) == Split(a, sep) + Split(b, sep)
  {
    var s := a + [sep] + b;
    FirstIndexJoin(a, b, sep);
    SplitAtFirst(s, sep);
    assert s[..|a|] == a;
    assert s[|a| + 1..] == b;
  }

  lemma SplitJoinStep(a: string, b: string, sep: char)
    requires sep in a
    ensures Split(a + [sep] + b, sep) ==
            [a[..FirstIndex(a, sep)]] + Split(a[FirstIndex(a, sep) + 1..] + [sep] + b, sep)
  {
    var s := a + [sep] + b;
    var i := FirstIndex(a, sep);
    FirstIndexJoin(a, b, sep);
    assert FirstIndex(s, sep) == i;
    SplitAtFirst(s, sep);
    JoinSlices(a, b, sep, i);
  }

  /** Slicing `a + sep + b` at a position inside `a`. */
  lemma JoinSlices(a: string, b: string, sep: char, i: nat)
    requires i < |a|
    ensures (a + [sep] + b)[..i] == a[..i]
    ensures (a + [sep] + b)[i + 1..] == a[i + 1..] + [sep] + b
  {
  }

  /** `s.replace(pat, rep)` with a string pattern: only the first occurrence
      is replaced, and a pattern that never occurs leaves `s` unchanged. */
  function ReplaceFirst(s: string, pat: string, rep: string): (r: string)
    ensures |pat| == 0 ==> r == rep + s
    decreases |s|
  {
    if |pat| <= |s| && s[..|pat|] == pat then rep + s[|pat|..]
    else if |s| == 0 then s
    else [s[0]] + ReplaceFirst(s[1..], pat, rep)
  }

  /** With no occurrence of the pattern, `replace` returns its input. */
  lemma {:induction false} ReplaceAbsent(s: string, pat: string, rep: string)
    requires !Contains(s, pat)
    ensures ReplaceFirst(s, pat, rep) == s
    decreases |s|
  {
    assert !OccursAt(s, pat, 0);
    if |s| > 0 && !(|pat| <= |s| && s[..|pat|] == pat) {
      forall i | 0 <= i <= |s[1..]| - |pat|
        ensures !OccursAt(s[1..], pat, i)
      {
        assert s[1..][i..i + |pat|] == s[i + 1..i + 1 + |pat|];
        assert !OccursAt(s, pat, i + 1);
      }
      ReplaceAbsent(s[1..], pat, rep);
      assert [s[0]] + s[1..] == s;
    }
  }

  /** A placeholder after a prefix that does not start it is substituted in
      place: `(p + pat + q).replace(pat, rep) == p + rep + q`. */
  lemma {:induction false} ReplaceAfterPrefix(p: string, pat: string, q: string, rep: string)
    requires |pat| > 0
    requires pat[0] !in p
    ensures ReplaceFirst(p + pat + q, pat, rep) == p + rep + q
  {
    var s := p + pat + q;
    if |p| == 0 {
      assert s == pat + q;
      assert s[..|pat|] == pat;
      assert s[|pat|..] == q;
    } else {
      assert s[0] == p[0];
      assert s[0] != pat[0];
      assert !(|pat| <= |s| && s[..|pat|] == pat) by {
        if |pat| <= |s| {
          assert s[..|pat|][0] != pat[0];
        }
      }
      assert s[1..] == p[1..] + pat + q;
      assert ReplaceFirst(s, pat, rep) == [p[0]] + ReplaceFirst(s[1..], pat, rep);
      assert pat[0] !in p[1..] by {
        forall k | 0 <= k < |p[1..]| ensures p[1..][k] != pat[0] {
          assert p[1..][k] == p[k + 1];
        }
      }
      ReplaceAfterPrefix(p[1..], pat, q, rep);
      assert [p[0]] + (p[1..] + rep + q) == p + rep + q;
    }
  }
}

=== FILE: wrappers.dfy ===
/** Failure-compatible wrappers used throughout the model. `Option` stands for a
    JavaScript value that may be `undefined`/`null`; `Result` for an operation
    that may throw. */
module Wrappers {

  datatype Option<+T> = None | Some(value: T) {
    predicate IsFailure() {
      None?
    }

    function PropagateFailure<U>(): Option<U>
      requires None?
    {
      None
    }

    function Extract(): T
      requires Some?
    {
      value
    }

    function GetOr(default: T): T {
      match this
      case Some(v) => v
      case None => default
    }
  }

  datatype Result<+R, +E> = Success(value: R) | Failure(error: E) {
    predicate IsFailure() {
      Failure?
    }

    function PropagateFailure<U>(): Result<U, E>
      requires Failure?
    {
      Failure(error)
    }

    function Extract(): R
      requires Success?
    {
      value
    }
  }
}
